=== FILE: README.md ===
# Dodgeball simulation and its input readers, in Dafny

This project models the pure logic of the dodgeball repository:

- **The simulation engine** is `RunSimulation` in `apps/dodgeball-go/compute/dodgeball.go`.
  - Players stand at integer points. The current holder scans the compass directions clockwise, starting one step past the direction the ball came from. It throws to the nearest live player on the first direction that has one, then leaves the field.
  - The receiver's new direction is the opposite of the throw. The game ends when a round finds nobody.
  - The result is the number of throws and the last holder.
  - `geometry.dfy` holds the `directionOf` classifier, checked against an independent definition of the eight rays.
  - `dodgeball.dfy` is a recursive functional definition of a round, a throw and the whole game.
  - `simulation.dfy` is the engine as a method over a mutable alive-flag array, proved equal to that definition.
- **The compass-token codec.**
  - `dirStrToCode` of the Node harness `tests/e2e_node.js` throws on an unknown token.
  - The copies in the Go tests are total and map an unknown token to 0.
  - Both live in `compass.dfy`, and `agreement.dfy` ties the names to the engine's geometry.
- **The sample reader and the expected-output reader** of `tests/e2e_node.js` (`parseSamples`, `parseOutputs`) are in `samples.dfy`.
  - Each has a writer as its inverse.
  - Round trips are proved through the tokeniser, for any white-space separator.
- **The TypeScript single-case reader** `parseInput` of `apps/dodgeball-ts/src/parser.ts` is in `ts_parser.dfy`, modelled as written.

The JavaScript primitives the readers use are in `text.dfy`: `trim`, `toUpperCase`, `split(/\s+/)`, `parseInt(_, 10)` and `BigInt`. `Text.Show` writes the decimal text that the round trips read back. `Option`/`Result` are in `wrappers.dfy`.

`reading.dfy` reads every token once into a `Cell`. A cell records four facts about the token:

- whether the token is empty;
- its `parseInt` value;
- its `BigInt` value;
- its `dirStrToCode` value.

A position past the last token reads as `undefined`, which is `Missing`. Every reader is a pure function of the token, so reading from cells is the same as calling the primitives at the point of use. `Reading.MissingIsUndefined` shows that, for `parseInt` and `dirStrToCode`, `Missing` reads like the string `"undefined"`. For `BigInt` it does not: `BigInt(undefined)` is a TypeError, not the SyntaxError of `BigInt("undefined")`.

`layout.dfy` holds generic lemmas about token lists laid out in blocks. The round-trip proofs use them.

JavaScript's `NaN` is `None` throughout. A Go panic (an index out of range) is a `Failure`.

Behaviour of the readers:

- **`parseInput` of parser.ts:**
  - it reads a numeric direction from token 1 (`parseInt`);
  - it skips the textual direction token after the players;
  - it keeps the start index as written, with no 1-based to 0-based conversion;
  - it never reports an error: a non-numeric or missing token becomes `NaN`.
- **The Node reader** converts the start index from 1-based to 0-based. A non-numeric count or start index reads as `NaN`; only a bad coordinate or direction token raises an error.
- **`startDirection`** is always in `0..7` for the Node reader (`Samples.ReadSamplesWellFormed`). The TypeScript reader gives whatever integer token 1 holds, or `NaN`.

## Model

| member | source | states |
|---|---|---|
| Geometry.DirectionOf | apps/dodgeball-go/compute/dodgeball.go:25-48 | The classifier returns -1 or a code 0..7. It returns a code only when the second point lies on that ray of the first, and -1 only when the point lies on none of the eight rays. |
| Geometry.DirectionOfIsRay | apps/dodgeball-go/compute/dodgeball.go:29-46 | The classifier returns code `d` exactly when the offset is a positive multiple of the unit step of `d` (N=+y, E=+x, codes clockwise). |
| Geometry.OnRayUnique | apps/dodgeball-go/compute/dodgeball.go:29-46 | A point lies on at most one of the eight rays, so the classification is well defined. |
| Geometry.StepDeterminesCode | apps/dodgeball-go/compute/dodgeball.go:29-46 | Distinct codes have distinct unit steps. |
| Dodgeball.ScanDir | apps/dodgeball-go/compute/dodgeball.go:56 | `(dir + step) & 7` is a code in 0..7 for every direction, negative ones included. |
| Dodgeball.ScanNeverBack | apps/dodgeball-go/compute/dodgeball.go:55-56 | Steps 1..7 never scan the direction the ball came from. |
| Dodgeball.NearestBelowSpec | apps/dodgeball-go/compute/dodgeball.go:61-78 | The index loop with strict `<` finds a candidate that is no farther than every candidate and strictly closer than every earlier one. It finds none exactly when there is no candidate. |
| Dodgeball.NearestIsReference | apps/dodgeball-go/compute/dodgeball.go:58-78 | The scan of one direction returns `j` if and only if `j` is the reference nearest candidate: live, not the holder, on the ray, closest, lowest index among equals. It returns nothing if and only if no candidate exists. |
| Dodgeball.ScanFrom | apps/dodgeball-go/compute/dodgeball.go:55-90 | The steps are tried in order. A found target is the nearest candidate of its direction, and every earlier step had no candidate. Nothing found means no step had one. |
| Dodgeball.Round | apps/dodgeball-go/compute/dodgeball.go:55-90 | A round's throw uses a step in 1..7 and never the incoming direction. It is the nearest candidate on the first direction that has one. |
| Dodgeball.RoundIsFirstNonEmptyDirection | apps/dodgeball-go/compute/dodgeball.go:55-90 | A round returns a target if and only if its direction is the first non-empty one clockwise and its receiver is that direction's nearest candidate. |
| Dodgeball.Throw | apps/dodgeball-go/compute/dodgeball.go:83-86 | A throw marks the thrower dead, moves the ball to the receiver, sets the direction to `(scanDir + 4) mod 8` and counts exactly one throw. Positions do not change, and the live players other than the holder drop by one. |
| Dodgeball.Simulate | apps/dodgeball-go/compute/dodgeball.go:50-95 | The game ends in a state whose round finds nobody. Positions are unchanged. Throws plus remaining live others is conserved. With no throw the state is untouched; otherwise the last holder is alive. |
| Dodgeball.LiveOthersBound | apps/dodgeball-go/compute/dodgeball.go:62 | At most `n - 1` players besides the holder are alive. |
| Dodgeball.Run | apps/dodgeball-go/compute/dodgeball.go:8-101 | With no players the result is `(0, startIndex)`. With a start index in range the run succeeds, the last player is in range, and throws are at most `n - 1`. The run fails (index panic) exactly when the start index is out of range and some player is alive. |
| Simulation.NearestIndex | apps/dodgeball-go/compute/dodgeball.go:58-78 | The imperative index loop computes the functional nearest candidate. With the holder index out of range it panics exactly when it meets a live player. |
| Simulation.ScanRound | apps/dodgeball-go/compute/dodgeball.go:55-90 | The seven-step loop computes the functional round, or the panic when the holder index is out of range and someone is alive. |
| Simulation.RunSimulation | apps/dodgeball-go/compute/dodgeball.go:8-101 | The engine's method, with a loop over a mutable alive array, returns exactly `Dodgeball.Run` of its input. Its throw count is 0 or below the player count. |
| Text.Tokens | tests/e2e_node.js:21 | `trim().split(/\s+/)` gives at least one token. It gives `[""]` exactly for a blank text; otherwise every token is a non-empty run of non-space characters. |
| Text.TokensOfJoin | apps/dodgeball-ts/src/parser.ts:4 | Splitting words joined by any white-space separator gives the words back. |
| Text.TrimPadded | tests/e2e_node.js:6 | `trim` removes exactly the white-space padding around a word. |
| Text.UpperAt | tests/e2e_node.js:6 | `toUpperCase` maps each character to its upper-case form in place. |
| Text.UpperConcat | tests/e2e_node.js:6 | Upper-casing distributes over concatenation. |
| Text.UpperTrimCommute | apps/dodgeball-go/compute/dodgeball_test.go:16 | On ASCII text, trimming then upper-casing (Go) equals upper-casing then trimming (JavaScript). |
| Text.DigitPrefixIsLongest | apps/dodgeball-ts/src/parser.ts:7 | The digits `parseInt` reads form a prefix of the text, and no digit follows them. |
| Text.ParseIntShow | tests/e2e_node.js:49 | `parseInt` reads back the decimal text of any integer, whatever non-digit text follows it. |
| Text.BigIntShow | tests/e2e_node.js:29-30 | `BigInt` reads back the decimal text of any integer. |
| Compass.DirStrToCode | tests/e2e_node.js:5-18 | On success the code is in 0..7 and names the normalised token. On failure the error carries the normalised (upper-cased, trimmed) token. |
| Compass.DirStrToCodeAccepts | tests/e2e_node.js:7-17 | The codec succeeds if and only if the normal form of the token is one of the eight names. |
| Compass.CodecInverse | tests/e2e_node.js:8-15 | A token decodes to `code` if and only if it normalises to that code's name. Every name decodes to its own code. |
| Compass.CanonicalCodes | tests/e2e_node.js:8-15 | N, NE, E, SE, S, SW, W, NW decode to 0..7 in that order. |
| Compass.NormaliseName | tests/e2e_node.js:6 | Each of the eight names is already in normal form. |
| Compass.CaseAndPaddingInsensitive | tests/e2e_node.js:6 | A name in any letter case, padded with white space, decodes like the canonical name. |
| Compass.DirStrToCodeOrZero | apps/dodgeball-go/compute/dodgeball_test.go:15-37 | The Go helper is total. It maps a token whose normal form is a name to that name's code, and every other token to 0. |
| Compass.GoAgreesWithNode | apps/dodgeball-go/e2e/e2e_test.go:23-45 | On ASCII text, the Go helper returns the Node codec's code wherever that codec succeeds, and 0 wherever it throws. |
| Reading.MissingIsUndefined | tests/e2e_node.js:33-34 | A token read past the end is the string `"undefined"`: `parseInt` gives `NaN`, and `dirStrToCode` throws `Unknown direction UNDEFINED`. |
| Reading.ReadWrite | tests/e2e_node.js:29-34 | A written number reads back through both `parseInt` and `BigInt`, and a written name through `dirStrToCode`. |
| Reading.ReadWriteAll | tests/e2e_node.js:29-34 | Each token of a written list reads back as the field it was written from. |
| Reading.TokensOfWritten | tests/e2e_node.js:21 | Written tokens joined by white space split back into exactly those tokens. |
| Samples.ParsePlayersReads | tests/e2e_node.js:28-32 | Player `j` takes its coordinates from `BigInt` of tokens `i + 2j` and `i + 2j + 1`, in order, and is alive. |
| Samples.ParsePlayersFails | tests/e2e_node.js:29-30 | Reading players fails if and only if some coordinate token is rejected by `BigInt` or missing. The error is that of the first such token. |
| Samples.ParseCase | tests/e2e_node.js:26-35 | A case has as many players as its count token, all alive, and the cursor advances past `3 + 2N` tokens. The direction is `dirStrToCode` of the token after the players. The start index is the next token minus one. |
| Samples.ParseCaseFails | tests/e2e_node.js:26-35 | A case fails only through a coordinate token or its direction token. |
| Samples.ParseCasesWellFormed | tests/e2e_node.js:25-36 | Every case read has a direction in 0..7 and only live players. |
| Samples.ReadSamplesWellFormed | tests/e2e_node.js:20-38 | Every case of a successful `parseSamples` has a direction in 0..7 and only live players. |
| Samples.ReadSamples | tests/e2e_node.js:20-38 | A successful read returns exactly `T` cases. A `NaN` or non-positive `T` returns no case. |
| Samples.BlankSamples | tests/e2e_node.js:21-25 | A blank sample file reads as no cases. |
| Samples.ParseCaseAt | tests/e2e_node.js:26-35 | Tokens that hold a case in the file layout read back as that case, with the cursor after it. |
| Samples.SamplesRoundTrip | tests/e2e_node.js:20-38 | The reader inverts the sample writer on every list of cases with a valid direction, a start index and only live players. The index is written 1-based and read back 0-based. |
| Samples.SamplesTextRoundTrip | tests/e2e_node.js:20-38 | The same round trip holds through the tokeniser, for any white-space separator. |
| Samples.ParseOutputsFrom | tests/e2e_node.js:43-50 | The reader returns at most one answer per two remaining tokens. |
| Samples.ParseOutputsFromReads | tests/e2e_node.js:43-50 | Answer `k` pairs tokens `2k` and `2k + 1`, left to right. With no empty token every complete pair is read and an unpaired last token is dropped. |
| Samples.BlankOutputs | tests/e2e_node.js:40-52 | A blank output file reads as no answers. |
| Samples.ParseEncodedOutputs | tests/e2e_node.js:40-52 | The output reader inverts the output writer on the token list. |
| Samples.OutputsRoundTrip | tests/e2e_node.js:40-52 | The output reader inverts the writer through the tokeniser, for any white-space separator and any number of answers. |
| TsParser.ReadPlayersReads | apps/dodgeball-ts/src/parser.ts:11-15 | Player `j` takes `parseInt` of tokens `i + 2j` and `i + 2j + 1` and is alive. |
| TsParser.ReadPlayersFrame | apps/dodgeball-ts/src/parser.ts:11-15 | The players depend only on the `2N` coordinate tokens. |
| TsParser.ParseCellsReads | apps/dodgeball-ts/src/parser.ts:3-25 | The players count is token 0 (0 when `NaN` or negative), and the direction is `parseInt` of token 1. Player `j` comes from tokens `2 + 2j` and `3 + 2j`. The start index is `parseInt` of token `3 + 2N`, unconverted. |
| TsParser.NoCountNoPlayers | apps/dodgeball-ts/src/parser.ts:7-15 | A `NaN`, zero or negative count gives no players. |
| TsParser.MissingTokensAreNaN | apps/dodgeball-ts/src/parser.ts:4-24 | Tokens past the end give `NaN` fields instead of an error: the direction, the start index, and each player's x and y separately. |
| TsParser.DirectionTokenIgnored | apps/dodgeball-ts/src/parser.ts:17 | Whatever the token at `2 + 2N` holds, the message is the same. |
| TsParser.TrailingTokensIgnored | apps/dodgeball-ts/src/parser.ts:17-24 | Tokens after `3 + 2N` do not change the message. |
| TsParser.BlankInput | apps/dodgeball-ts/src/parser.ts:4-8 | A blank text gives no players and `NaN` for the direction and the start index. |
| TsParser.ParseCellsAt | apps/dodgeball-ts/src/parser.ts:3-25 | Tokens holding a message in the input layout read back as that message. |
| TsParser.InputRoundTrip | apps/dodgeball-ts/src/parser.ts:3-25 | `parseInput` inverts the input writer through the tokeniser, for any separator and any token written in the skipped slot. |
| Agreement.NamesMatchSteps | apps/dodgeball-go/compute/dodgeball.go:29-46 | A name contains N, S, E or W exactly when its code's step goes +y, -y, +x or -x. |
| Agreement.StepsAlongCode | apps/dodgeball-go/compute/dodgeball.go:25-48 | A point `k > 0` unit steps of code `d` away is classified as `d`. |
| Agreement.TokenNamesRay | tests/e2e_node.js:5-18 | A token that decodes to `code` names the ray the engine reports as `code`. Its N and E letters give the signs of that ray. |

## Left out

- The fixed widths of Go integers are not modelled; the model uses mathematical integers. This covers 64-bit overflow in coordinate differences and in `dx*dx + dy*dy`, the `int32` throw counter, and the truncating `int32(cur)` of the result.
- The `math.MaxInt64` "no candidate yet" sentinel is replaced by an `Option`. The two are equal while no distance overflows.
- Only ASCII white space and ASCII letters are handled, on both sides: JavaScript's `trim`, `split(/\s+/)` and `toUpperCase`, and Go's `strings.TrimSpace` and `strings.ToUpper`. Both languages share the one white-space set `Text.IsSpace`. The model has no Unicode spaces and no case mapping beyond `a`-`z`. The two languages differ outside ASCII: Go's `TrimSpace` strips U+0085 and JavaScript's `trim` does not; JavaScript's `trim` strips U+FEFF and Go's `TrimSpace` does not.
- Compass.GoAgreesWithNode: the agreement holds on ASCII text only. `"\uFEFFS"` gives 4 in Node and 0 in Go; `"\u0085S"` throws in Node and gives 4 in Go.
- Text.UpperTrimCommute: Go's trim-then-upper equals JavaScript's upper-then-trim on ASCII text only, because the two trims strip different non-ASCII white space (U+0085 in Go, U+FEFF in JavaScript).
- `BigInt` is modelled on decimal text only: no `0x`/`0o`/`0b` prefixes. `parseInt` accepts only radix 10.
- `Number(x)` of the Node reader is modelled as the exact integer, with no loss of precision above 2^53.
- `parseInt` results are modelled as exact integers: no rounding above 2^53 and no `Infinity`, so a count loop bounded by such a value is finite in the model (in JavaScript an `Infinity` count never ends).
- Text.ParseIntShow: the exact read-back holds for the model's `parseInt`; JavaScript's holds only up to 2^53 in magnitude, because of the rounding above.
- File reading, process spawning, sleeps and the comparison loop of the test harnesses are not modelled. This covers `run()` in tests/e2e_node.js, the Go test harnesses and tests/index.js.
- The gRPC transport, server, client and service wiring, and the output formatters are not modelled: they are network and HTTP plumbing.
- The JSON and fallback input formats are not modelled: `autoParseInputs`, imported at apps/dodgeball-ts/src/server.ts:4, is not defined in parser.ts, so there is no code for them.
- The engine's input message is read-only: `RunSimulation` copies it into local arrays (apps/dodgeball-go/compute/dodgeball.go:11-19), and the model takes it as a value.

=== FILE: agreement.dfy ===
/**
 * The compass codes mean the same thing on both sides: the names that
 * `dirStrToCode` of tests/e2e_node.js gives codes 0..7 point the way
 * `directionOf` of apps/dodgeball-go/compute/dodgeball.go classifies offsets.
 */
module Agreement {
  import opened Wrappers
  import opened Geometry
  import opened Compass

  /** Each name's letters are the signs of its code's unit step: N is +y, S is -y, E is +x, W is -x. */
  lemma NamesMatchSteps(code: int)
    requires 0 <= code < 8
    ensures 'N' in DirName(code) <==> StepY(code) > 0
    ensures 'S' in DirName(code) <==> StepY(code) < 0
    ensures 'E' in DirName(code) <==> StepX(code) > 0
    ensures 'W' in DirName(code) <==> StepX(code) < 0
  {
    assert DirName(code) == Names[code];
    assert code == 0 || code == 1 || code == 2 || code == 3 || code == 4 || code == 5 || code == 6 || code == 7;
  }

  /** A point `k > 0` unit steps of code `d` away is classified as code `d`. */
  lemma StepsAlongCode(ax: int, ay: int, d: int, k: int)
    requires 0 <= d < 8 && k > 0
    ensures DirectionOf(ax, ay, ax + Times(k, StepX(d)), ay + Times(k, StepY(d))) == d
  {
    var qx, qy := ax + Times(k, StepX(d)), ay + Times(k, StepY(d));
    assert Max(Abs(qx - ax), Abs(qy - ay)) == k;
    DirectionOfIsRay(ax, ay, qx, qy, d);
  }

  /**
   * A direction token that decodes to `code` names the ray `directionOf`
   * reports as `code`, and its letters give the signs of that ray.
   */
  lemma TokenNamesRay(s: string, code: int, ax: int, ay: int, k: int)
    requires DirStrToCode(s) == Success(code) && k > 0
    ensures 0 <= code < 8
    ensures DirectionOf(ax, ay, ax + Times(k, StepX(code)), ay + Times(k, StepY(code))) == code
    ensures 'N' in Normalise(s) <==> StepY(code) > 0
    ensures 'E' in Normalise(s) <==> StepX(code) > 0
  {
    CodecInverse(s, code);
    NamesMatchSteps(code);
    StepsAlongCode(ax, ay, code, k);
  }
}

=== FILE: compass.dfy ===
/**
 * The compass-token codec: `dirStrToCode` of tests/e2e_node.js, which throws on
 * an unknown token, and the total copy in the Go test helpers, which maps an
 * unknown token to 0.
 */
module Compass {
  import opened Wrappers
  import opened Text

  /** The eight tokens, clockwise from North; a token's position is its code. */
  const Names: seq<string> := ["N", "NE", "E", "SE", "S", "SW", "W", "NW"]

  datatype CodecError = UnknownDirection(token: string)

  /** The inverse of the codec on 0..7. */
  function DirName(code: int): (name: string)
    requires 0 <= code < 8
    ensures name in Names
  {
    Names[code]
  }

  /** JavaScript normalisation: `String(s).toUpperCase().trim()`. */
  function Normalise(s: string): string {
    Trim(Upper(s))
  }

  /** Go normalisation: `strings.ToUpper(strings.TrimSpace(s))`. */
  function GoNormalise(s: string): string {
    Upper(Trim(s))
  }

  /** The normal form of a word, character by character. */
  lemma NormaliseWord(s: string, w: string)
    requires |s| == |w| && forall k :: 0 <= k < |s| ==> UpperChar(s[k]) == w[k]
    requires |w| > 0 && !IsSpace(w[0]) && !IsSpace(w[|w| - 1])
    ensures Normalise(s) == w
  {
    UpperWord(s, w);
    TrimWord(w);
  }

  /** `dirStrToCode` of the Node harness: throws `Unknown direction <token>` on anything else. */
  function DirStrToCode(s: string): (r: Result<int, CodecError>)
    ensures r.Success? ==> 0 <= r.value < 8 && Names[r.value] == Normalise(s)
    ensures r.Failure? ==> r.error == UnknownDirection(Normalise(s))
  {
    var t := Normalise(s);
    if t == "N" then Success(0)
    else if t == "NE" then Success(1)
    else if t == "E" then Success(2)
    else if t == "SE" then Success(3)
    else if t == "S" then Success(4)
    else if t == "SW" then Success(5)
    else if t == "W" then Success(6)
    else if t == "NW" then Success(7)
    else Failure(UnknownDirection(t))
  }

  /** The codec accepts exactly the tokens whose normal form is one of the eight names. */
  lemma DirStrToCodeAccepts(s: string)
    ensures DirStrToCode(s).Success? <==> Normalise(s) in Names
  {
  }

  /** `dirStrToCode` of the Go test helpers: total, with 0 for an unknown token. */
  function DirStrToCodeOrZero(s: string): (code: int)
    ensures 0 <= code < 8
    ensures GoNormalise(s) in Names ==> Names[code] == GoNormalise(s)
    ensures GoNormalise(s) !in Names ==> code == 0
  {
    var t := GoNormalise(s);
    if t == "N" then 0
    else if t == "NE" then 1
    else if t == "E" then 2
    else if t == "SE" then 3
    else if t == "S" then 4
    else if t == "SW" then 5
    else if t == "W" then 6
    else if t == "NW" then 7
    else 0
  }

  /** Each name is already in normal form. */
  lemma NormaliseName(code: int)
    requires 0 <= code < 8
    ensures Normalise(DirName(code)) == DirName(code)
  {
    var w := DirName(code);
    NameShape(w);
    TrimWord(w);
  }

  /** The codec and `DirName` are inverse: a token decodes to `code` exactly when it normalises to its name. */
  lemma CodecInverse(s: string, code: int)
    requires 0 <= code < 8
    ensures DirStrToCode(s) == Success(code) <==> Normalise(s) == DirName(code)
    ensures DirStrToCode(DirName(code)) == Success(code)
  {
    NormaliseName(code);
  }

  /** The eight canonical tokens decode to 0..7 in clockwise order. */
  lemma CanonicalCodes()
    ensures DirStrToCode("N") == Success(0) && DirStrToCode("NE") == Success(1)
    ensures DirStrToCode("E") == Success(2) && DirStrToCode("SE") == Success(3)
    ensures DirStrToCode("S") == Success(4) && DirStrToCode("SW") == Success(5)
    ensures DirStrToCode("W") == Success(6) && DirStrToCode("NW") == Success(7)
  {
    forall code | 0 <= code < 8 ensures DirStrToCode(DirName(code)) == Success(code) {
      CodecInverse(DirName(code), code);
    }
    assert DirName(0) == "N" && DirName(1) == "NE" && DirName(2) == "E" && DirName(3) == "SE";
    assert DirName(4) == "S" && DirName(5) == "SW" && DirName(6) == "W" && DirName(7) == "NW";
  }

  /** Every name is a non-empty upper-case word. */
  lemma NameShape(w: string)
    requires w in Names
    ensures |w| > 0 && NoSpace(w) && Upper(w) == w
  {
    assert forall k :: 0 <= k < |w| ==> 'A' <= w[k] <= 'Z';
    UpperWord(w, w);
  }

  lemma UpperSpace(a: string)
    requires AllSpace(a)
    ensures AllSpace(Upper(a))
  {
    UpperAt(a);
  }

  /**
   * Case and padding do not matter: a token whose upper-cased form is a name,
   * surrounded by white space, decodes like the name itself.
   */
  lemma CaseAndPaddingInsensitive(pre: string, v: string, post: string)
    requires AllSpace(pre) && AllSpace(post)
    requires Upper(v) in Names
    ensures DirStrToCode(pre + v + post) == DirStrToCode(Upper(v))
  {
    var w := Upper(v);
    NameShape(w);
    NormalisePadded(pre, v, post);
    NormalisePadded("", w, "");
    assert "" + w + "" == w;
    SameNormalForm(pre + v + post, w);
  }

  lemma NormalisePadded(pre: string, v: string, post: string)
    requires AllSpace(pre) && AllSpace(post)
    requires |Upper(v)| > 0 && NoSpace(Upper(v))
    ensures Normalise(pre + v + post) == Upper(v)
  {
    var w := Upper(v);
    UpperSpace(pre);
    UpperSpace(post);
    UpperConcat(pre + v, post);
    UpperConcat(pre, v);
    TrimPadded(Upper(pre), w, Upper(post));
  }

  lemma SameNormalForm(s: string, t: string)
    requires Normalise(s) == Normalise(t)
    ensures DirStrToCode(s) == DirStrToCode(t)
  {
  }

  /** The Go helpers agree with the Node codec on every token it accepts, and give 0 where it throws. */
  lemma GoAgreesWithNode(s: string)
    ensures DirStrToCode(s).Success? ==> DirStrToCodeOrZero(s) == DirStrToCode(s).value
    ensures DirStrToCode(s).Failure? ==> DirStrToCodeOrZero(s) == 0
  {
    UpperTrimCommute(s);
  }
}

=== FILE: dodgeball.dfy ===
/**
 * The dodgeball simulation of apps/dodgeball-go/compute/dodgeball.go as a
 * recursive functional definition: the data model, one round of scanning,
 * one throw, and the game played to the end.
 */
module Dodgeball {
  import opened Wrappers
  import opened Geometry

  datatype Player = Player(x: int, y: int, alive: bool)

  datatype SimulationInput = SimulationInput(players: seq<Player>, startDirection: int, startIndex: int)

  datatype SimulationResult = SimulationResult(throws: int, lastPlayer: int)

  /** Go's index-out-of-range panic when the start index does not name a player. */
  datatype SimulationError = IndexOutOfRange(index: int)

  /**
   * The local working copy the engine mutates: positions, alive flags, the
   * current holder, the direction the ball arrived from, and the throw count.
   */
  datatype Game = Game(xs: seq<int>, ys: seq<int>, alive: seq<bool>, cur: int, dir: int, throws: nat)

  /** One throw found by a round: the step tried, the direction scanned, the receiver. */
  datatype Target = Target(step: int, scanDir: int, receiver: nat)

  predicate Valid(g: Game) {
    |g.xs| == |g.alive| && |g.ys| == |g.alive| && 0 <= g.cur < |g.alive|
  }

  /** The direction scanned at `step` of a round, with `& 7` read as Euclidean `mod 8`. */
  function ScanDir(dir: int, step: int): (d: int)
    ensures 0 <= d < 8
  {
    (dir + step) % 8
  }

  /** A round never scans back along the direction the ball came from. */
  lemma ScanNeverBack(dir: int, step: int)
    requires 1 <= step <= 7
    ensures ScanDir(dir, step) != dir % 8
  {
    var q := dir / 8;
    var m := dir % 8;
    assert dir == 8 * q + m;
    assert dir + step == 8 * q + (m + step);
  }

  /** Player `i` can receive a throw in direction `d`: alive, not the holder, on that ray. */
  predicate Candidate(g: Game, d: int, i: int)
    requires Valid(g)
  {
    0 <= i < |g.alive| && g.alive[i] && i != g.cur
    && DirectionOf(g.xs[g.cur], g.ys[g.cur], g.xs[i], g.ys[i]) == d
  }

  predicate NoCandidate(g: Game, d: int)
    requires Valid(g)
  {
    forall i :: 0 <= i < |g.alive| ==> !Candidate(g, d, i)
  }

  /** Squared distance from the holder to player `i`. */
  function Dist(g: Game, i: int): int
    requires Valid(g) && 0 <= i < |g.alive|
  {
    var dx := g.xs[i] - g.xs[g.cur];
    var dy := g.ys[i] - g.ys[g.cur];
    dx * dx + dy * dy
  }

  /** Reference definition: `j` is the closest candidate in direction `d`, the lowest index among equals. */
  predicate IsNearest(g: Game, d: int, j: int)
    requires Valid(g)
  {
    && Candidate(g, d, j)
    && (forall i :: 0 <= i < |g.alive| && Candidate(g, d, i) ==> Dist(g, j) <= Dist(g, i))
    && (forall i :: 0 <= i < j && Candidate(g, d, i) ==> Dist(g, j) < Dist(g, i))
  }

  /** The scan over indices `0 .. k-1` with a strict `<`, so the first of equally close candidates wins. */
  function NearestBelow(g: Game, d: int, k: nat): (b: Option<nat>)
    requires Valid(g) && k <= |g.alive|
    ensures b.Some? ==> b.value < k
    decreases k
  {
    if k == 0 then None
    else
      var b := NearestBelow(g, d, k - 1);
      if Candidate(g, d, k - 1) && (b.None? || Dist(g, k - 1) < Dist(g, b.value)) then Some(k - 1) else b
  }

  /**
   * What the scan over `0 .. k-1` finds: a candidate no farther than any other,
   * strictly closer than every candidate before it, and nothing exactly when
   * there is no candidate.
   */
  lemma {:induction false} NearestBelowSpec(g: Game, d: int, k: nat)
    requires Valid(g) && k <= |g.alive|
    ensures var b := NearestBelow(g, d, k);
      && (b.Some? ==> Candidate(g, d, b.value))
      && (b.Some? ==> forall i :: 0 <= i < k && Candidate(g, d, i) ==> Dist(g, b.value) <= Dist(g, i))
      && (b.Some? ==> forall i :: 0 <= i < b.value && Candidate(g, d, i) ==> Dist(g, b.value) < Dist(g, i))
      && (b.None? <==> forall i :: 0 <= i < k ==> !Candidate(g, d, i))
    decreases k
  {
    if k > 0 {
      NearestBelowSpec(g, d, k - 1);
    }
  }

  function Nearest(g: Game, d: int): Option<nat>
    requires Valid(g)
  {
    NearestBelow(g, d, |g.alive|)
  }

  /** The scan picks the reference nearest candidate, and finds nothing exactly when there is none. */
  lemma NearestIsReference(g: Game, d: int, j: int)
    requires Valid(g)
    ensures Nearest(g, d) == Some(j) <==> IsNearest(g, d, j)
    ensures Nearest(g, d).None? <==> NoCandidate(g, d)
  {
    var b := Nearest(g, d);
    NearestBelowSpec(g, d, |g.alive|);
    if IsNearest(g, d, j) {
      assert b.Some?;
    }
  }

  /** Tries steps `step .. 7` in order and stops at the first direction that has a candidate. */
  function ScanFrom(g: Game, step: int): (t: Option<Target>)
    requires Valid(g) && 1 <= step <= 8
    ensures t.Some? ==> step <= t.value.step <= 7 && t.value.scanDir == ScanDir(g.dir, t.value.step)
    ensures t.Some? ==> IsNearest(g, t.value.scanDir, t.value.receiver)
    ensures t.Some? ==> forall s :: step <= s < t.value.step ==> NoCandidate(g, ScanDir(g.dir, s))
    ensures t.None? ==> forall s :: step <= s <= 7 ==> NoCandidate(g, ScanDir(g.dir, s))
    decreases 8 - step
  {
    if step > 7 then None
    else
      var d := ScanDir(g.dir, step);
      NearestBelowSpec(g, d, |g.alive|);
      match Nearest(g, d)
      case Some(j) => Some(Target(step, d, j))
      case None => ScanFrom(g, step + 1)
  }

  /**
   * One round: directions `dir+1 .. dir+7` (mod 8) clockwise, never `dir` itself;
   * the first one with a candidate gives the throw.
   */
  function Round(g: Game): (t: Option<Target>)
    requires Valid(g)
    ensures t.Some? ==> 1 <= t.value.step <= 7 && t.value.scanDir == ScanDir(g.dir, t.value.step)
    ensures t.Some? ==> t.value.scanDir != g.dir % 8
    ensures t.Some? ==> IsNearest(g, t.value.scanDir, t.value.receiver)
    ensures t.Some? ==> forall s :: 1 <= s < t.value.step ==> NoCandidate(g, ScanDir(g.dir, s))
    ensures t.None? ==> forall s :: 1 <= s <= 7 ==> NoCandidate(g, ScanDir(g.dir, s))
  {
    var t := ScanFrom(g, 1);
    if t.Some? then ScanNeverBack(g.dir, t.value.step); t else t
  }

  /** A round's answer is the unique first non-empty direction and its nearest candidate. */
  lemma RoundIsFirstNonEmptyDirection(g: Game, t: Target)
    requires Valid(g)
    ensures Round(g) == Some(t) <==>
      && 1 <= t.step <= 7
      && t.scanDir == ScanDir(g.dir, t.step)
      && (forall s :: 1 <= s < t.step ==> NoCandidate(g, ScanDir(g.dir, s)))
      && IsNearest(g, t.scanDir, t.receiver)
  {
    if && 1 <= t.step <= 7
       && t.scanDir == ScanDir(g.dir, t.step)
       && (forall s :: 1 <= s < t.step ==> NoCandidate(g, ScanDir(g.dir, s)))
       && IsNearest(g, t.scanDir, t.receiver)
    {
      assert !NoCandidate(g, t.scanDir);
      var r := Round(g);
      assert r.Some?;
      var u := r.value;
      assert !NoCandidate(g, u.scanDir);
      assert u.step == t.step;
      NearestIsReference(g, t.scanDir, t.receiver);
      NearestIsReference(g, t.scanDir, u.receiver);
    }
  }

  /** Live players other than the holder: the termination measure. */
  function LiveOthers(g: Game): set<int> {
    set i | 0 <= i < |g.alive| && g.alive[i] && i != g.cur
  }

  /** The thrower leaves the field, the receiver holds the ball, arriving from the opposite direction. */
  function Throw(g: Game, t: Target): (g': Game)
    requires Valid(g) && Candidate(g, t.scanDir, t.receiver)
    ensures Valid(g')
    ensures g'.xs == g.xs && g'.ys == g.ys && |g'.alive| == |g.alive|
    ensures g'.alive == g.alive[g.cur := false]
    ensures g'.cur == t.receiver && g'.alive[g'.cur]
    ensures g'.dir == (t.scanDir + 4) % 8
    ensures g'.throws == g.throws + 1
    ensures |LiveOthers(g')| == |LiveOthers(g)| - 1
  {
    var g' := g.(alive := g.alive[g.cur := false], cur := t.receiver, dir := (t.scanDir + 4) % 8, throws := g.throws + 1);
    assert LiveOthers(g') == LiveOthers(g) - {t.receiver};
    g'
  }

  /** Rounds are played until one finds no target; the game that stops is returned. */
  function Simulate(g: Game): (end: Game)
    requires Valid(g)
    ensures Valid(end) && Round(end).None?
    ensures end.xs == g.xs && end.ys == g.ys && |end.alive| == |g.alive|
    ensures end.throws + |LiveOthers(end)| == g.throws + |LiveOthers(g)|
    ensures end.throws >= g.throws
    ensures end.throws == g.throws ==> end == g
    ensures end.throws > g.throws ==> end.alive[end.cur]
    decreases |LiveOthers(g)|
  {
    match Round(g)
    case None => g
    case Some(t) => Simulate(Throw(g, t))
  }

  /** Counting: a set of indices below `n` has at most `n` elements. */
  lemma {:induction false} IndexSetBound(s: set<int>, n: nat)
    requires forall i :: i in s ==> 0 <= i < n
    ensures |s| <= n
    decreases n
  {
    if n > 0 {
      var s' := s - {n - 1};
      IndexSetBound(s', n - 1);
    } else {
      assert forall i :: i !in s;
      assert s == {};
    }
  }

  /** At most `n - 1` players are on the field besides the holder. */
  lemma LiveOthersBound(g: Game)
    requires Valid(g)
    ensures |LiveOthers(g)| <= |g.alive| - 1
  {
    var s := LiveOthers(g) + {g.cur};
    IndexSetBound(s, |g.alive|);
  }

  function InitialGame(input: SimulationInput): Game {
    var n := |input.players|;
    Game(seq(n, i requires 0 <= i < n => input.players[i].x),
         seq(n, i requires 0 <= i < n => input.players[i].y),
         seq(n, i requires 0 <= i < n => input.players[i].alive),
         input.startIndex, input.startDirection, 0)
  }

  predicate AnyAlive(alive: seq<bool>) {
    exists i :: 0 <= i < |alive| && alive[i]
  }

  /**
   * `RunSimulation`: the game played from the input. A start index outside the
   * player list panics as soon as a live player is examined; with nobody alive
   * (in particular with no players) nothing is examined and the result is
   * `(0, startIndex)`.
   */
  function Run(input: SimulationInput): (r: Result<SimulationResult, SimulationError>)
    ensures |input.players| == 0 ==> r == Success(SimulationResult(0, input.startIndex))
    ensures 0 <= input.startIndex < |input.players| ==>
      r.Success? && 0 <= r.value.lastPlayer < |input.players|
    ensures r.Success? ==> 0 <= r.value.throws && (r.value.throws == 0 || r.value.throws < |input.players|)
    ensures r.Failure? <==>
      !(0 <= input.startIndex < |input.players|) && AnyAlive(InitialGame(input).alive)
    ensures r.Failure? ==> r.error == IndexOutOfRange(input.startIndex)
  {
    var g := InitialGame(input);
    if 0 <= g.cur < |g.alive| then
      var end := Simulate(g);
      LiveOthersBound(g);
      Success(SimulationResult(end.throws, end.cur))
    else if AnyAlive(g.alive) then
      Failure(IndexOutOfRange(g.cur))
    else
      Success(SimulationResult(0, g.cur))
  }
}

=== FILE: geometry.dfy ===
/**
 * The compass geometry of the simulation: the `directionOf` helper of
 * apps/dodgeball-go/compute/dodgeball.go, and an independent description of
 * the eight rays it recognises.
 */
module Geometry {

  /** x component of the unit step of compass code `d`: N (0) is +y, E (2) is +x, codes advance clockwise. */
  function StepX(d: int): (u: int)
    requires 0 <= d < 8
    ensures -1 <= u <= 1
  {
    [0, 1, 1, 1, 0, -1, -1, -1][d]
  }

  /** y component of the unit step of compass code `d`. */
  function StepY(d: int): (u: int)
    requires 0 <= d < 8
    ensures -1 <= u <= 1
  {
    [1, 1, 0, -1, -1, -1, 0, 1][d]
  }

  function Abs(a: int): nat {
    if a < 0 then -a else a
  }

  function Max(a: int, b: int): int {
    if a < b then b else a
  }

  /** `k * u` for a unit component `u`, written without multiplication. */
  function Times(k: int, u: int): int
    requires -1 <= u <= 1
  {
    if u == 0 then 0 else if u > 0 then k else -k
  }

  /**
   * Point (qx, qy) lies on the open ray leaving (ax, ay) in compass direction `d`:
   * the offset is a positive multiple of the unit step of `d`.
   */
  predicate OnRay(ax: int, ay: int, qx: int, qy: int, d: int)
    requires 0 <= d < 8
  {
    var dx := qx - ax;
    var dy := qy - ay;
    var k := Max(Abs(dx), Abs(dy));
    k > 0 && dx == Times(k, StepX(d)) && dy == Times(k, StepY(d))
  }

  /**
   * The compass code of the offset from (ax, ay) to (qx, qy), or -1 when the
   * points coincide or the offset is neither horizontal, vertical nor diagonal.
   */
  function DirectionOf(ax: int, ay: int, qx: int, qy: int): (r: int)
    ensures -1 <= r < 8
    ensures r != -1 ==> OnRay(ax, ay, qx, qy, r)
    ensures r == -1 ==> forall d :: 0 <= d < 8 ==> !OnRay(ax, ay, qx, qy, d)
  {
    var dx := qx - ax;
    var dy := qy - ay;
    if dx == 0 then
      if dy > 0 then 0 else if dy < 0 then 4 else -1
    else if dy == 0 then
      if dx > 0 then 2 else if dx < 0 then 6 else -1
    else if dx == dy then
      if dx > 0 then 1 else 5
    else if dx == -dy then
      if dx > 0 then 3 else 7
    else
      -1
  }

  /** Recovers the compass code from its unit step. */
  function CodeOfStep(sx: int, sy: int): int {
    if sx == 0 then (if sy > 0 then 0 else 4)
    else if sx > 0 then (if sy > 0 then 1 else if sy == 0 then 2 else 3)
    else (if sy < 0 then 5 else if sy == 0 then 6 else 7)
  }

  lemma StepDeterminesCode(d: int)
    requires 0 <= d < 8
    ensures CodeOfStep(StepX(d), StepY(d)) == d
  {
  }

  /** A point lies on at most one of the eight rays. */
  lemma {:induction false} OnRayUnique(ax: int, ay: int, qx: int, qy: int, d1: int, d2: int)
    requires 0 <= d1 < 8 && 0 <= d2 < 8
    requires OnRay(ax, ay, qx, qy, d1) && OnRay(ax, ay, qx, qy, d2)
    ensures d1 == d2
  {
    assert StepX(d1) == StepX(d2) && StepY(d1) == StepY(d2);
    StepDeterminesCode(d1);
    StepDeterminesCode(d2);
  }

  /** `directionOf` returns code `d` exactly when the second point lies on ray `d` of the first. */
  lemma DirectionOfIsRay(ax: int, ay: int, qx: int, qy: int, d: int)
    requires 0 <= d < 8
    ensures DirectionOf(ax, ay, qx, qy) == d <==> OnRay(ax, ay, qx, qy, d)
  {
    var r := DirectionOf(ax, ay, qx, qy);
    if OnRay(ax, ay, qx, qy, d) {
      assert r != -1;
      OnRayUnique(ax, ay, qx, qy, r, d);
    }
  }
}

=== FILE: layout.dfy ===
/**
 * Token lists written as blocks laid end to end, and where each block sits
 * among the tokens. The sample and answer writers are built from these, and
 * the round-trip proofs find each written field through them.
 */
module Layout {
  /** The blocks laid end to end. */
  function Concat<T>(blocks: seq<seq<T>>): seq<T>
    decreases |blocks|
  {
    if |blocks| == 0 then [] else blocks[0] + Concat(blocks[1..])
  }

  /** `s` holds `e` from position `i` on. */
  ghost predicate HasAt<T>(s: seq<T>, i: nat, e: seq<T>) {
    i + |e| <= |s| && forall k :: 0 <= k < |e| ==> s[i + k] == e[k]
  }

  /** Where each block starts when the blocks are laid from `i`, followed by where the last one ends. */
  function Starts<T>(blocks: seq<seq<T>>, i: nat): (off: seq<nat>)
    ensures |off| == |blocks| + 1 && off[0] == i
    decreases |blocks|
  {
    if |blocks| == 0 then [i] else [i] + Starts(blocks[1..], i + |blocks[0]|)
  }

  lemma HasAtWhole<T>(s: seq<T>)
    ensures HasAt(s, 0, s)
  {
  }

  lemma HasAtSplit<T>(s: seq<T>, i: nat, a: seq<T>, b: seq<T>)
    requires HasAt(s, i, a + b)
    ensures HasAt(s, i, a) && HasAt(s, i + |a|, b)
  {
    forall k | 0 <= k < |a| ensures s[i + k] == a[k] {
      assert (a + b)[k] == a[k];
    }
    forall k | 0 <= k < |b| ensures s[i + |a| + k] == b[k] {
      assert (a + b)[|a| + k] == b[k];
    }
  }

  lemma HasAtIndex<T>(s: seq<T>, i: nat, e: seq<T>, a: nat)
    requires HasAt(s, i, e) && a < |e|
    ensures i + a < |s| && s[i + a] == e[a]
  {
  }

  /** A block framed by one element before it and two after it. */
  lemma HasAtFrame<T>(s: seq<T>, i: nat, a: T, mid: seq<T>, b: T, c: T)
    requires HasAt(s, i, [a] + mid + [b, c])
    ensures i + 2 + |mid| < |s| && s[i] == a
    ensures HasAt(s, i + 1, mid)
    ensures s[i + 1 + |mid|] == b && s[i + 2 + |mid|] == c
  {
    HasAtSplit(s, i, [a] + mid, [b, c]);
    HasAtSplit(s, i, [a], mid);
    HasAtIndex(s, i, [a], 0);
    HasAtIndex(s, i + 1 + |mid|, [b, c], 0);
    HasAtIndex(s, i + 1 + |mid|, [b, c], 1);
  }

  /** A block framed by two elements before it and two after it. */
  lemma HasAtFrame2<T>(s: seq<T>, i: nat, a: T, b: T, mid: seq<T>, c: T, e: T)
    requires HasAt(s, i, [a, b] + mid + [c, e])
    ensures i + 3 + |mid| < |s| && s[i] == a && s[i + 1] == b
    ensures HasAt(s, i + 2, mid)
    ensures s[i + 2 + |mid|] == c && s[i + 3 + |mid|] == e
  {
    assert [a, b] + mid + [c, e] == [a] + ([b] + mid) + [c, e];
    HasAtFrame(s, i, a, [b] + mid, c, e);
    HasAtSplit(s, i + 1, [b], mid);
    HasAtIndex(s, i + 1, [b], 0);
  }

  /** Block `k` of a concatenation sits at start `k`, and the next block starts where it ends. */
  lemma {:induction false} ConcatLayout<T>(s: seq<T>, i: nat, blocks: seq<seq<T>>)
    requires HasAt(s, i, Concat(blocks))
    ensures Starts(blocks, i)[|blocks|] == i + |Concat(blocks)|
    ensures forall k :: 0 <= k < |blocks| ==>
      && HasAt(s, Starts(blocks, i)[k], blocks[k])
      && Starts(blocks, i)[k + 1] == Starts(blocks, i)[k] + |blocks[k]|
    decreases |blocks|
  {
    if |blocks| > 0 {
      var j := i + |blocks[0]|;
      HasAtSplit(s, i, blocks[0], Concat(blocks[1..]));
      ConcatLayout(s, j, blocks[1..]);
      var off, rest := Starts(blocks, i), Starts(blocks[1..], j);
      assert forall k :: 1 <= k <= |blocks| ==> off[k] == rest[k - 1];
      assert forall k :: 1 <= k < |blocks| ==> blocks[k] == blocks[1..][k - 1];
    }
  }

  /** Blocks of two: elements `2k` and `2k + 1` of the concatenation are block `k`. */
  lemma {:induction false} ConcatPairs<T>(blocks: seq<seq<T>>)
    requires forall k :: 0 <= k < |blocks| ==> |blocks[k]| == 2
    ensures |Concat(blocks)| == 2 * |blocks|
    ensures forall k :: 0 <= k < |blocks| ==>
      Concat(blocks)[2 * k] == blocks[k][0] && Concat(blocks)[2 * k + 1] == blocks[k][1]
    decreases |blocks|
  {
    if |blocks| > 0 {
      var rest := blocks[1..];
      ConcatPairs(rest);
      var s := Concat(blocks);
      assert s == blocks[0] + Concat(rest);
      forall k | 1 <= k < |blocks|
        ensures s[2 * k] == blocks[k][0] && s[2 * k + 1] == blocks[k][1]
      {
        assert blocks[k] == rest[k - 1];
        assert s[2 * k] == Concat(rest)[2 * (k - 1)];
        assert s[2 * k + 1] == Concat(rest)[2 * (k - 1) + 1];
      }
    }
  }

  /** Pairs laid from `i`: pair `k` sits at `i + 2k`. */
  lemma HasAtPairs<T>(s: seq<T>, i: nat, blocks: seq<seq<T>>)
    requires forall k :: 0 <= k < |blocks| ==> |blocks[k]| == 2
    requires HasAt(s, i, Concat(blocks))
    ensures i + 2 * |blocks| <= |s|
    ensures forall k :: 0 <= k < |blocks| ==> s[i + 2 * k] == blocks[k][0] && s[i + 2 * k + 1] == blocks[k][1]
  {
    ConcatPairs(blocks);
    forall k | 0 <= k < |blocks| ensures s[i + 2 * k] == blocks[k][0] && s[i + 2 * k + 1] == blocks[k][1] {
      HasAtIndex(s, i, Concat(blocks), 2 * k);
      HasAtIndex(s, i, Concat(blocks), 2 * k + 1);
    }
  }
}

=== FILE: reading.dfy ===
/**
 * One whitespace-separated token as the readers of tests/e2e_node.js and
 * apps/dodgeball-ts/src/parser.ts see it. Every reader is a pure function of
 * the token, so the model reads each token once, into a `Cell`, and the
 * multi-token readers work on cells.
 */
module Reading {
  import opened Wrappers
  import opened Text
  import opened Compass

  /** What the token readers can throw. */
  datatype ReadError =
    | BadDirection(token: string)   // `Unknown direction <token>` from `dirStrToCode`
    | BigIntSyntax(token: string)   // SyntaxError from `BigInt` on a non-integer token
    | BigIntOfUndefined             // TypeError from `BigInt(undefined)` past the last token

  /** A compass code, 0 (North) to 7 (North-West) clockwise. */
  type Code = d: int | 0 <= d < 8

  /**
   * One token read four ways: whether it is the empty string, `parseInt(t, 10)`
   * (`None` for `NaN`), `BigInt(t)` and `dirStrToCode(t)`.
   */
  datatype Cell = Cell(empty: bool, num: Option<int>, big: Result<int, ReadError>, dir: Result<Code, ReadError>)

  function ReadCell(t: string): (cell: Cell)
    ensures cell.empty <==> |t| == 0
    ensures cell.big.Success? ==> BigIntOf(t) == Some(cell.big.value)
    ensures cell.big.Failure? ==> BigIntOf(t).None? && cell.big.error == BigIntSyntax(t)
    ensures cell.dir.Success? ==> DirStrToCode(t) == Success(cell.dir.value)
    ensures cell.dir.Failure? ==> DirStrToCode(t).Failure? && cell.dir.error == BadDirection(Normalise(t))
  {
    var big := match BigIntOf(t)
      case Some(v) => Success(v)
      case None => Failure(BigIntSyntax(t));
    var dir := match DirStrToCode(t)
      case Success(c) => Success(c)
      case Failure(UnknownDirection(u)) => Failure(BadDirection(u));
    Cell(t == "", ParseInt(t), big, dir)
  }

  /**
   * A position past the last token, where `tokens[i]` is `undefined`:
   * `parseInt` gives `NaN`, `BigInt` throws a TypeError, and `dirStrToCode`
   * rejects `String(undefined)` upper-cased.
   */
  const Missing: Cell := Cell(false, None, Failure(BigIntOfUndefined), Failure(BadDirection("UNDEFINED")))

  /** `Missing` is what the text readers make of the string "undefined", except that `BigInt` throws differently. */
  lemma MissingIsUndefined()
    ensures Missing.num == ParseInt("undefined")
    ensures Missing.dir == ReadCell("undefined").dir
  {
    UndefinedIsNaN();
    UndefinedNormalForm();
    assert "UNDEFINED" !in Names;
  }

  lemma UndefinedIsNaN()
    ensures ParseInt("undefined") == None
  {
    var u := "undefined";
    assert TrimStart(u) == u;
    assert DigitPrefix(u) == "";
  }

  lemma UndefinedNormalForm()
    ensures Normalise("undefined") == "UNDEFINED"
  {
    NormaliseWord("undefined", "UNDEFINED");
  }

  /** Every token read into a cell. */
  function Cells(tokens: seq<string>): (cells: seq<Cell>)
    ensures |cells| == |tokens|
  {
    seq(|tokens|, k requires 0 <= k < |tokens| => ReadCell(tokens[k]))
  }

  /** `tokens[i]` as the readers see it, `undefined` past the end. */
  function CellAt(cells: seq<Cell>, i: nat): Cell {
    if i < |cells| then cells[i] else Missing
  }

  // ---------------------------------------------------------------- written tokens

  /** A token as the sample and answer writers produce it: a decimal number or a direction name. */
  datatype Field = Num(n: int) | Dir(d: Code)

  function Write(f: Field): string {
    match f
    case Num(n) => Show(n)
    case Dir(d) => DirName(d)
  }

  /** Every written token is one word, so the tokeniser gives it back whole. */
  lemma WriteIsWord(f: Field)
    ensures IsWord(Write(f))
  {
    if f.Dir? {
      NameShape(DirName(f.d));
    }
  }

  function WriteAll(fs: seq<Field>): (ts: seq<string>)
    ensures |ts| == |fs|
  {
    seq(|fs|, k requires 0 <= k < |fs| => Write(fs[k]))
  }

  lemma WriteAllWords(fs: seq<Field>)
    ensures forall m :: 0 <= m < |fs| ==> IsWord(WriteAll(fs)[m])
  {
    forall m | 0 <= m < |fs| ensures IsWord(WriteAll(fs)[m]) {
      WriteIsWord(fs[m]);
    }
  }

  /** Written fields joined by white space tokenise back into the written tokens. */
  lemma TokensOfWritten(fs: seq<Field>, sep: string)
    requires |fs| > 0 && |sep| > 0 && AllSpace(sep)
    ensures Tokens(Join(WriteAll(fs), sep)) == WriteAll(fs)
  {
    WriteAllWords(fs);
    TokensOfJoin(WriteAll(fs), sep);
  }

  /** What reading a written field must give: a number reads back through `parseInt` and `BigInt`, a name through `dirStrToCode`. */
  predicate Agrees(cell: Cell, f: Field) {
    && !cell.empty
    && match f
      case Num(n) => cell.num == Some(n) && cell.big == Success(n)
      case Dir(d) => cell.dir == Success(d)
  }

  /** `cells` reads back the fields `fs`, position by position. */
  ghost predicate ReadsBack(cells: seq<Cell>, fs: seq<Field>) {
    |cells| == |fs| && forall m :: 0 <= m < |fs| ==> Agrees(cells[m], fs[m])
  }

  /** The readers invert the writer on one token. */
  lemma ReadWrite(f: Field)
    ensures Agrees(ReadCell(Write(f)), f)
  {
    WriteIsWord(f);
    match f
    case Num(n) =>
      ParseIntShow(n, "");
      assert Show(n) + "" == Show(n);
      BigIntShow(n);
    case Dir(d) =>
      CodecInverse(DirName(d), d);
  }

  /** The readers invert the writer on every token of a list. */
  lemma ReadWriteAll(fs: seq<Field>)
    ensures ReadsBack(Cells(WriteAll(fs)), fs)
  {
    forall m | 0 <= m < |fs| ensures Agrees(Cells(WriteAll(fs))[m], fs[m]) {
      ReadWrite(fs[m]);
    }
  }
}

=== FILE: samples.dfy ===
/**
 * The multi-case sample reader and the expected-output reader of
 * tests/e2e_node.js, over the cells of a file's tokens, with writers for both
 * formats as their inverses.
 */
module Samples {
  import opened Wrappers
  import opened Text
  import opened Compass
  import opened Dodgeball
  import opened Layout
  import opened Reading

  /** One case as the Node harness builds it; `startIndex` is `NaN` (`None`) when its token is not a number. */
  datatype SampleCase = SampleCase(players: seq<Player>, startDirection: int, startIndex: Option<int>)

  /** `v - 1` on a number that may be `NaN`. */
  function Decrement(v: Option<int>): Option<int> {
    match v
    case Some(x) => Some(x - 1)
    case None => None
  }

  /** Reads `k` players from cursor `i` with `BigInt`, x then y for each, with `alive = true`. */
  function ParsePlayers(cells: seq<Cell>, i: nat, k: nat): (r: Result<(seq<Player>, nat), ReadError>)
    ensures r.Success? ==> |r.value.0| == k && r.value.1 == i + 2 * k
    decreases k
  {
    if k == 0 then Success(([], i))
    else
      var x :- CellAt(cells, i).big;
      var y :- CellAt(cells, i + 1).big;
      var rest :- ParsePlayers(cells, i + 2, k - 1);
      Success(([Player(x, y, true)] + rest.0, rest.1))
  }

  /** Player `j` holds the numbers at tokens `i + 2j` and `i + 2j + 1`, and is alive. */
  lemma {:induction false} ParsePlayersReads(cells: seq<Cell>, i: nat, k: nat)
    requires ParsePlayers(cells, i, k).Success?
    ensures forall j :: 0 <= j < k ==>
      var p := ParsePlayers(cells, i, k).value.0[j];
      && CellAt(cells, i + 2 * j).big == Success(p.x)
      && CellAt(cells, i + 2 * j + 1).big == Success(p.y)
      && p.alive
    decreases k
  {
    if k > 0 {
      ParsePlayersReads(cells, i + 2, k - 1);
      var ps := ParsePlayers(cells, i, k).value.0;
      var rest := ParsePlayers(cells, i + 2, k - 1).value.0;
      assert forall j :: 1 <= j < k ==> ps[j] == rest[j - 1] && i + 2 * j == (i + 2) + 2 * (j - 1);
    }
  }

  /**
   * The reader fails exactly when some coordinate token is rejected by `BigInt`
   * or missing, and then with the error of the first such token.
   */
  lemma {:induction false} ParsePlayersFails(cells: seq<Cell>, i: nat, k: nat)
    ensures ParsePlayers(cells, i, k).Success? <==> forall m :: i <= m < i + 2 * k ==> CellAt(cells, m).big.Success?
    ensures ParsePlayers(cells, i, k).Failure? ==>
      exists m :: i <= m < i + 2 * k && CellAt(cells, m).big == Failure(ParsePlayers(cells, i, k).error)
        && forall m' :: i <= m' < m ==> CellAt(cells, m').big.Success?
    decreases k
  {
    if k > 0 {
      ParsePlayersFails(cells, i + 2, k - 1);
    }
  }

  predicate AllAlive(ps: seq<Player>) {
    forall j :: 0 <= j < |ps| ==> ps[j].alive
  }

  /**
   * One case from cursor `i`: `N`, `N` coordinate pairs, a direction token and
   * a 1-based start index, stored 0-based.
   */
  function ParseCase(cells: seq<Cell>, i: nat): (r: Result<(SampleCase, nat), ReadError>)
    ensures r.Success? ==>
      var n := LoopCount(CellAt(cells, i).num);
      var c := r.value.0;
      && |c.players| == n
      && AllAlive(c.players)
      && r.value.1 == i + 3 + 2 * n
      && CellAt(cells, i + 1 + 2 * n).dir == Success(c.startDirection)
      && c.startIndex == Decrement(CellAt(cells, i + 2 + 2 * n).num)
  {
    var n := LoopCount(CellAt(cells, i).num);
    var ps :- ParsePlayers(cells, i + 1, n);
    ParsePlayersReads(cells, i + 1, n);
    var j := ps.1;
    var code :- CellAt(cells, j).dir;
    Success((SampleCase(ps.0, code, Decrement(CellAt(cells, j + 1).num)), j + 2))
  }

  /** A case fails only through its coordinates or its direction token. */
  lemma ParseCaseFails(cells: seq<Cell>, i: nat)
    ensures ParseCase(cells, i).Failure? <==>
      var n := LoopCount(CellAt(cells, i).num);
      ParsePlayers(cells, i + 1, n).Failure? || CellAt(cells, i + 1 + 2 * n).dir.Failure?
  {
  }

  /** `t` consecutive cases from cursor `i`. */
  function ParseCases(cells: seq<Cell>, i: nat, t: nat): (r: Result<(seq<SampleCase>, nat), ReadError>)
    ensures r.Success? ==> |r.value.0| == t && r.value.1 >= i
    decreases t
  {
    if t == 0 then Success(([], i))
    else
      var first :- ParseCase(cells, i);
      var rest :- ParseCases(cells, first.1, t - 1);
      Success(([first.0] + rest.0, rest.1))
  }

  /** A case read has a valid direction and only live players. */
  predicate WellFormed(c: SampleCase) {
    0 <= c.startDirection < 8 && AllAlive(c.players)
  }

  lemma {:induction false} ParseCasesWellFormed(cells: seq<Cell>, i: nat, t: nat)
    requires ParseCases(cells, i, t).Success?
    ensures forall k :: 0 <= k < t ==> WellFormed(ParseCases(cells, i, t).value.0[k])
    decreases t
  {
    if t > 0 {
      var first := ParseCase(cells, i).value;
      ParseCasesWellFormed(cells, first.1, t - 1);
      var cs := ParseCases(cells, i, t).value.0;
      var rest := ParseCases(cells, first.1, t - 1).value.0;
      assert forall k :: 1 <= k < t ==> cs[k] == rest[k - 1];
    }
  }

  /** `parseSamples` on read tokens: a case count, then that many cases; a `NaN` or non-positive count reads no case. */
  function ReadSamples(cells: seq<Cell>): (r: Result<seq<SampleCase>, ReadError>)
    ensures r.Success? ==> |r.value| == LoopCount(CellAt(cells, 0).num)
    ensures LoopCount(CellAt(cells, 0).num) == 0 ==> r == Success([])
  {
    var cases :- ParseCases(cells, 1, LoopCount(CellAt(cells, 0).num));
    Success(cases.0)
  }

  lemma ReadSamplesWellFormed(cells: seq<Cell>)
    requires ReadSamples(cells).Success?
    ensures forall k :: 0 <= k < |ReadSamples(cells).value| ==> WellFormed(ReadSamples(cells).value[k])
  {
    ParseCasesWellFormed(cells, 1, LoopCount(CellAt(cells, 0).num));
  }

  /** `parseSamples` on the token list of a sample file. */
  function ParseSamples(tokens: seq<string>): Result<seq<SampleCase>, ReadError> {
    ReadSamples(Cells(tokens))
  }

  /** `parseSamples` on the text of a sample file. */
  function ParseSamplesText(text: string): Result<seq<SampleCase>, ReadError> {
    ParseSamples(Tokens(text))
  }

  /** A blank sample file holds no cases: its one empty token is `NaN` as a count. */
  lemma BlankSamples(text: string)
    requires AllSpace(text)
    ensures ParseSamplesText(text) == Success([])
  {
    assert Tokens(text)[0] == "";
    assert ReadCell("").num == None by {
      assert TrimStart("") == "";
    }
  }

  // ---------------------------------------------------------------- the sample writer

  /** A case the sample format can express: a valid direction and a numeric start index. */
  predicate Encodable(c: SampleCase) {
    WellFormed(c) && c.startIndex.Some?
  }

  function PlayerBlocks(ps: seq<Player>): (blocks: seq<seq<Field>>)
    ensures |blocks| == |ps|
  {
    seq(|ps|, j requires 0 <= j < |ps| => [Num(ps[j].x), Num(ps[j].y)])
  }

  /** Players as coordinate fields, x then y. */
  function PlayerFields(ps: seq<Player>): (fs: seq<Field>)
    ensures |fs| == 2 * |ps|
  {
    ConcatPairs(PlayerBlocks(ps));
    Concat(PlayerBlocks(ps))
  }

  /** A case as the fields of a sample file, with the start index written 1-based. */
  function CaseFields(c: SampleCase): (fs: seq<Field>)
    requires Encodable(c)
    ensures |fs| == 3 + 2 * |c.players|
  {
    [Num(|c.players|)] + PlayerFields(c.players) + [Dir(c.startDirection), Num(c.startIndex.value + 1)]
  }

  function CaseBlocks(cs: seq<SampleCase>): (blocks: seq<seq<Field>>)
    requires forall k :: 0 <= k < |cs| ==> Encodable(cs[k])
    ensures |blocks| == |cs|
  {
    seq(|cs|, k requires 0 <= k < |cs| => CaseFields(cs[k]))
  }

  /** The fields of a sample file: the case count, then each case. */
  function SampleFields(cs: seq<SampleCase>): seq<Field>
    requires forall k :: 0 <= k < |cs| ==> Encodable(cs[k])
  {
    [Num(|cs|)] + Concat(CaseBlocks(cs))
  }

  /** A list of cases as the tokens of a sample file. */
  function EncodeSamples(cs: seq<SampleCase>): seq<string>
    requires forall k :: 0 <= k < |cs| ==> Encodable(cs[k])
  {
    WriteAll(SampleFields(cs))
  }

  // ---------------------------------------------------------------- reading back, on cells

  /** The cells from `i` on hold the coordinates of `ps`. */
  ghost predicate PlayersAt(cells: seq<Cell>, i: nat, ps: seq<Player>) {
    forall j :: 0 <= j < |ps| ==>
      CellAt(cells, i + 2 * j).big == Success(ps[j].x) && CellAt(cells, i + 2 * j + 1).big == Success(ps[j].y)
  }

  lemma {:induction false} ParsePlayersAt(cells: seq<Cell>, i: nat, ps: seq<Player>)
    requires AllAlive(ps) && PlayersAt(cells, i, ps)
    ensures ParsePlayers(cells, i, |ps|) == Success((ps, i + 2 * |ps|))
    decreases |ps|
  {
    if |ps| > 0 {
      var rest := ps[1..];
      assert PlayersAt(cells, i + 2, rest) && AllAlive(rest) by {
        assert forall j :: 0 <= j < |rest| ==> rest[j] == ps[j + 1] && i + 2 + 2 * j == i + 2 * (j + 1);
      }
      ParsePlayersAt(cells, i + 2, rest);
      assert ps == [Player(ps[0].x, ps[0].y, true)] + rest;
    }
  }

  /** The cells from `i` on hold case `c` as the writer lays it out. */
  ghost predicate CaseAt(cells: seq<Cell>, i: nat, c: SampleCase) {
    var n := |c.players|;
    && c.startIndex.Some?
    && CellAt(cells, i).num == Some(n)
    && PlayersAt(cells, i + 1, c.players)
    && CellAt(cells, i + 1 + 2 * n).dir == Success(c.startDirection)
    && CellAt(cells, i + 2 + 2 * n).num == Some(c.startIndex.value + 1)
  }

  lemma ParseCaseAt(cells: seq<Cell>, i: nat, c: SampleCase)
    requires Encodable(c) && CaseAt(cells, i, c)
    ensures ParseCase(cells, i) == Success((c, i + 3 + 2 * |c.players|))
  {
    ParsePlayersAt(cells, i + 1, c.players);
  }

  /** `ParseCases` over a chain of cases, each ending where the next begins. */
  lemma {:induction false} ParseCasesChain(cells: seq<Cell>, cs: seq<SampleCase>, off: seq<nat>)
    requires |off| == |cs| + 1
    requires forall k :: 0 <= k < |cs| ==> ParseCase(cells, off[k]) == Success((cs[k], off[k + 1]))
    ensures ParseCases(cells, off[0], |cs|) == Success((cs, off[|cs|]))
    decreases |cs|
  {
    if |cs| > 0 {
      assert forall k :: 0 <= k < |cs| - 1 ==> cs[1..][k] == cs[k + 1] && off[1..][k] == off[k + 1];
      ParseCasesChain(cells, cs[1..], off[1..]);
      assert cs == [cs[0]] + cs[1..];
    }
  }

  // ---------------------------------------------------------------- reading back written fields

  lemma PlayersAtWritten(fs: seq<Field>, cells: seq<Cell>, i: nat, ps: seq<Player>)
    requires ReadsBack(cells, fs) && HasAt(fs, i, PlayerFields(ps))
    ensures PlayersAt(cells, i, ps)
  {
    var blocks := PlayerBlocks(ps);
    HasAtPairs(fs, i, blocks);
    forall j | 0 <= j < |ps|
      ensures CellAt(cells, i + 2 * j).big == Success(ps[j].x)
      ensures CellAt(cells, i + 2 * j + 1).big == Success(ps[j].y)
    {
      assert blocks[j] == [Num(ps[j].x), Num(ps[j].y)];
    }
  }

  lemma CaseAtWritten(fs: seq<Field>, cells: seq<Cell>, i: nat, c: SampleCase)
    requires ReadsBack(cells, fs) && Encodable(c) && HasAt(fs, i, CaseFields(c))
    ensures CaseAt(cells, i, c)
  {
    var n, d, s := |c.players|, c.startDirection, c.startIndex.value + 1;
    HasAtFrame(fs, i, Num(n), PlayerFields(c.players), Dir(d), Num(s));
    PlayersAtWritten(fs, cells, i + 1, c.players);
  }

  lemma ParseCasesWritten(fs: seq<Field>, cells: seq<Cell>, i: nat, cs: seq<SampleCase>)
    requires ReadsBack(cells, fs)
    requires forall k :: 0 <= k < |cs| ==> Encodable(cs[k])
    requires HasAt(fs, i, Concat(CaseBlocks(cs)))
    ensures ParseCases(cells, i, |cs|).Success?
    ensures ParseCases(cells, i, |cs|).value.0 == cs
  {
    var blocks := CaseBlocks(cs);
    var off := Starts(blocks, i);
    ConcatLayout(fs, i, blocks);
    forall k | 0 <= k < |cs| ensures ParseCase(cells, off[k]) == Success((cs[k], off[k + 1])) {
      assert blocks[k] == CaseFields(cs[k]);
      CaseAtWritten(fs, cells, off[k], cs[k]);
      ParseCaseAt(cells, off[k], cs[k]);
    }
    ParseCasesChain(cells, cs, off);
  }

  /** The reader inverts the writer: every list of expressible cases reads back unchanged. */
  lemma SamplesRoundTrip(cs: seq<SampleCase>)
    requires forall k :: 0 <= k < |cs| ==> Encodable(cs[k])
    ensures ParseSamples(EncodeSamples(cs)) == Success(cs)
  {
    var fs := SampleFields(cs);
    var cells := Cells(WriteAll(fs));
    ReadWriteAll(fs);
    HasAtWhole(fs);
    HasAtSplit(fs, 0, [Num(|cs|)], Concat(CaseBlocks(cs)));
    assert Agrees(cells[0], Num(|cs|));
    ParseCasesWritten(fs, cells, 1, cs);
  }

  /** The reader inverts the writer through the tokeniser, for any white-space separator. */
  lemma SamplesTextRoundTrip(cs: seq<SampleCase>, sep: string)
    requires forall k :: 0 <= k < |cs| ==> Encodable(cs[k])
    requires |sep| > 0 && AllSpace(sep)
    ensures ParseSamplesText(Join(EncodeSamples(cs), sep)) == Success(cs)
  {
    var fs := SampleFields(cs);
    assert |fs| > 0;
    TokensOfWritten(fs, sep);
    SamplesRoundTrip(cs);
  }

  // ---------------------------------------------------------------- the output reader

  /** One expected answer line: throws and 1-based last player, each possibly `NaN`. */
  datatype Expected = Expected(throws: Option<int>, lastPlayer: Option<int>)

  /**
   * The loop of `parseOutputs` from cursor `i`: pairs tokens left to right,
   * stops at an empty token, and drops an unpaired last token.
   */
  function ParseOutputsFrom(cells: seq<Cell>, i: nat): (out: seq<Expected>)
    requires i <= |cells|
    ensures |out| <= (|cells| - i) / 2
    decreases |cells| - i
  {
    if i >= |cells| || cells[i].empty || i + 1 >= |cells| then []
    else [Expected(cells[i].num, cells[i + 1].num)] + ParseOutputsFrom(cells, i + 2)
  }

  /**
   * Answer `k` is read from tokens `i + 2k` and `i + 2k + 1`; with no empty
   * token every complete pair is read.
   */
  lemma {:induction false} ParseOutputsFromReads(cells: seq<Cell>, i: nat)
    requires i <= |cells|
    ensures forall k :: 0 <= k < |ParseOutputsFrom(cells, i)| ==>
      ParseOutputsFrom(cells, i)[k] == Expected(cells[i + 2 * k].num, cells[i + 2 * k + 1].num)
    ensures (forall m :: i <= m < |cells| ==> !cells[m].empty) ==> |ParseOutputsFrom(cells, i)| == (|cells| - i) / 2
    decreases |cells| - i
  {
    if !(i >= |cells| || cells[i].empty || i + 1 >= |cells|) {
      ParseOutputsFromReads(cells, i + 2);
      var out := ParseOutputsFrom(cells, i);
      var rest := ParseOutputsFrom(cells, i + 2);
      assert forall k :: 1 <= k < |out| ==> out[k] == rest[k - 1] && i + 2 * k == (i + 2) + 2 * (k - 1);
    }
  }

  /** `parseOutputs` on the token list of an expected-output file. */
  function ParseOutputs(tokens: seq<string>): seq<Expected> {
    ParseOutputsFrom(Cells(tokens), 0)
  }

  /** `parseOutputs` on the text of an expected-output file. */
  function ParseOutputsText(text: string): seq<Expected> {
    ParseOutputs(Tokens(text))
  }

  /** A blank output file reads as no answers (the single empty token stops the loop). */
  lemma BlankOutputs(text: string)
    requires AllSpace(text)
    ensures ParseOutputsText(text) == []
  {
  }

  function ResultBlocks(rs: seq<(int, int)>): (blocks: seq<seq<Field>>)
    ensures |blocks| == |rs|
  {
    seq(|rs|, k requires 0 <= k < |rs| => [Num(rs[k].0), Num(rs[k].1)])
  }

  /** Answers as `throws lastPlayer` fields. */
  function OutputFields(rs: seq<(int, int)>): (fs: seq<Field>)
    ensures |fs| == 2 * |rs|
  {
    ConcatPairs(ResultBlocks(rs));
    Concat(ResultBlocks(rs))
  }

  /** Answers as the tokens of an expected-output file. */
  function EncodeOutputs(rs: seq<(int, int)>): seq<string> {
    WriteAll(OutputFields(rs))
  }

  /** The answers a list of results should read back as. */
  function AsExpected(rs: seq<(int, int)>): (es: seq<Expected>)
    ensures |es| == |rs|
  {
    seq(|rs|, k requires 0 <= k < |rs| => Expected(Some(rs[k].0), Some(rs[k].1)))
  }

  lemma ReadWrittenOutputs(rs: seq<(int, int)>, cells: seq<Cell>)
    requires ReadsBack(cells, OutputFields(rs))
    ensures ParseOutputsFrom(cells, 0) == AsExpected(rs)
  {
    var blocks := ResultBlocks(rs);
    ConcatPairs(blocks);
    ParseOutputsFromReads(cells, 0);
    var out := ParseOutputsFrom(cells, 0);
    forall k | 0 <= k < |rs| ensures out[k] == AsExpected(rs)[k] {
      assert blocks[k] == [Num(rs[k].0), Num(rs[k].1)];
    }
  }

  /** The output reader inverts the writer on the token list. */
  lemma ParseEncodedOutputs(rs: seq<(int, int)>)
    ensures ParseOutputs(EncodeOutputs(rs)) == AsExpected(rs)
  {
    ReadWriteAll(OutputFields(rs));
    ReadWrittenOutputs(rs, Cells(EncodeOutputs(rs)));
  }

  /** The output reader inverts the writer, through the tokeniser, for any white-space separator. */
  lemma OutputsRoundTrip(rs: seq<(int, int)>, sep: string)
    requires |sep| > 0 && AllSpace(sep)
    ensures ParseOutputsText(Join(EncodeOutputs(rs), sep)) == AsExpected(rs)
  {
    var ts := EncodeOutputs(rs);
    if |rs| > 0 {
      TokensOfWritten(OutputFields(rs), sep);
    } else {
      assert Join(ts, sep) == "";
    }
    ParseEncodedOutputs(rs);
  }
}

=== FILE: simulation.dfy ===
/**
 * `RunSimulation` of apps/dodgeball-go/compute/dodgeball.go as an imperative
 * method over a mutable alive-flag array, proved to compute `Dodgeball.Run`.
 */
module Simulation {
  import opened Wrappers
  import opened Geometry
  import opened Dodgeball

  /**
   * The inner index loop for one scan direction: the nearest live candidate,
   * lowest index first among equals. Examining a live player while the holder
   * index is out of range is Go's index panic.
   */
  method NearestIndex(xs: seq<int>, ys: seq<int>, alive: seq<bool>, cur: int, ghost dir: int, ghost throws: nat, d: int)
    returns (r: Result<Option<nat>, SimulationError>)
    requires |xs| == |alive| && |ys| == |alive|
    ensures 0 <= cur < |alive| ==> r == Success(Nearest(Game(xs, ys, alive, cur, dir, throws), d))
    ensures !(0 <= cur < |alive|) ==>
      r == (if AnyAlive(alive) then Failure(IndexOutOfRange(cur)) else Success(None))
  {
    ghost var g := Game(xs, ys, alive, cur, dir, throws);
    var best: Option<nat> := None;
    var bestDist := 0;
    var i := 0;
    while i < |alive|
      invariant 0 <= i <= |alive|
      invariant 0 <= cur < |alive| ==> best == NearestBelow(g, d, i)
      invariant 0 <= cur < |alive| && best.Some? ==> bestDist == Dist(g, best.value)
      invariant !(0 <= cur < |alive|) ==> best.None? && forall k :: 0 <= k < i ==> !alive[k]
    {
      if alive[i] && i != cur {
        if !(0 <= cur < |alive|) {
          return Failure(IndexOutOfRange(cur));
        }
        if DirectionOf(xs[cur], ys[cur], xs[i], ys[i]) == d {
          var dx := xs[i] - xs[cur];
          var dy := ys[i] - ys[cur];
          var dist := dx * dx + dy * dy;
          if best.None? || dist < bestDist {
            best := Some(i);
            bestDist := dist;
          }
        }
      }
      i := i + 1;
    }
    return Success(best);
  }

  /** One round: scan steps 1..7 from the current direction and stop at the first hit. */
  method ScanRound(xs: seq<int>, ys: seq<int>, alive: seq<bool>, cur: int, dir: int, ghost throws: nat)
    returns (r: Result<Option<Target>, SimulationError>)
    requires |xs| == |alive| && |ys| == |alive|
    ensures 0 <= cur < |alive| ==> r == Success(Round(Game(xs, ys, alive, cur, dir, throws)))
    ensures !(0 <= cur < |alive|) ==>
      r == (if AnyAlive(alive) then Failure(IndexOutOfRange(cur)) else Success(None))
  {
    ghost var g := Game(xs, ys, alive, cur, dir, throws);
    var step := 1;
    while step <= 7
      invariant 1 <= step <= 8
      invariant 0 <= cur < |alive| ==> ScanFrom(g, step) == Round(g)
      invariant !(0 <= cur < |alive|) && step > 1 ==> !AnyAlive(alive)
    {
      var scanDir := (dir + step) % 8;
      var best := NearestIndex(xs, ys, alive, cur, dir, throws, scanDir);
      assert scanDir == ScanDir(dir, step);
      match best
      case Failure(e) =>
        return Failure(e);
      case Success(Some(j)) =>
        return Success(Some(Target(step, scanDir, j)));
      case Success(None) =>
        step := step + 1;
    }
    return Success(None);
  }

  /**
   * The engine: copy the input, then repeat rounds until one finds no target;
   * each throw marks the thrower dead, passes the ball, reverses the direction
   * and counts one throw.
   */
  method RunSimulation(input: SimulationInput) returns (res: Result<SimulationResult, SimulationError>)
    ensures res == Run(input)
    ensures res.Success? ==> 0 <= res.value.throws && (res.value.throws == 0 || res.value.throws < |input.players|)
  {
    var n := |input.players|;
    var xs := seq(n, i requires 0 <= i < n => input.players[i].x);
    var ys := seq(n, i requires 0 <= i < n => input.players[i].y);
    var alive := new bool[n](i requires 0 <= i < n => input.players[i].alive);
    ghost var g0 := InitialGame(input);
    assert alive[..] == g0.alive;
    var cur := input.startIndex;
    var dir := input.startDirection;
    var throws: nat := 0;
    var inRange := 0 <= cur < n;
    var running := true;
    while running
      invariant xs == g0.xs && ys == g0.ys && alive.Length == n
      invariant inRange ==> 0 <= cur < n
      invariant inRange ==> Simulate(Game(xs, ys, alive[..], cur, dir, throws)) == Simulate(g0)
      invariant inRange && !running ==> Round(Game(xs, ys, alive[..], cur, dir, throws)).None?
      invariant !inRange ==> cur == input.startIndex && throws == 0 && alive[..] == g0.alive
      invariant !inRange && !running ==> !AnyAlive(alive[..])
      decreases (if running then 1 else 0) + |LiveOthers(Game(xs, ys, alive[..], cur, dir, throws))|
    {
      ghost var g := Game(xs, ys, alive[..], cur, dir, throws);
      var r := ScanRound(xs, ys, alive[..], cur, dir, throws);
      match r
      case Failure(e) =>
        return Failure(e);
      case Success(None) =>
        running := false;
      case Success(Some(t)) =>
        ghost var next := Throw(g, t);
        dir := (t.scanDir + 4) % 8;
        alive[cur] := false;
        assert alive[..] == next.alive;
        cur := t.receiver;
        throws := throws + 1;
        assert xs == next.xs && ys == next.ys && cur == next.cur && dir == next.dir && throws == next.throws;
    }
    if inRange {
      LiveOthersBound(g0);
    }
    return Success(SimulationResult(throws, cur));
  }
}

=== FILE: text.dfy ===
/**
 * The JavaScript string primitives the readers rely on, over `string` = `seq<char>`:
 * white space, `trim`, `toUpperCase`, `trim().split(/\s+/)`, `parseInt(_, 10)`,
 * `BigInt(_)`, and the decimal writer used as their inverse.
 */
module Text {
  import opened Wrappers

  /** White space as `\s` and `String.prototype.trim` see it, restricted to ASCII. */
  predicate IsSpace(c: char) {
    c == ' ' || c == '\t' || c == '\n' || c == '\r' || c == '\U{B}' || c == '\U{C}'
  }

  predicate AllSpace(s: string) {
    forall k :: 0 <= k < |s| ==> IsSpace(s[k])
  }

  predicate NoSpace(s: string) {
    forall k :: 0 <= k < |s| ==> !IsSpace(s[k])
  }

  /** What `split(/\s+/)` yields between separators: a non-empty run of non-space characters. */
  predicate IsWord(w: string) {
    |w| > 0 && NoSpace(w)
  }

  // ---------------------------------------------------------------- trimming

  function TrimStart(s: string): string
    decreases |s|
  {
    if |s| > 0 && IsSpace(s[0]) then TrimStart(s[1..]) else s
  }

  function TrimEnd(s: string): string
    decreases |s|
  {
    if |s| > 0 && IsSpace(s[|s| - 1]) then TrimEnd(s[..|s| - 1]) else s
  }

  /** `s.trim()`. */
  function Trim(s: string): string {
    TrimEnd(TrimStart(s))
  }

  lemma {:induction false} TrimStartPadded(a: string, w: string)
    requires AllSpace(a) && |w| > 0 && !IsSpace(w[0])
    ensures TrimStart(a + w) == w
    decreases |a|
  {
    if |a| > 0 {
      assert (a + w)[1..] == a[1..] + w;
      TrimStartPadded(a[1..], w);
    } else {
      assert a + w == w;
    }
  }

  lemma {:induction false} TrimEndPadded(w: string, b: string)
    requires AllSpace(b) && |w| > 0 && !IsSpace(w[|w| - 1])
    ensures TrimEnd(w + b) == w
    decreases |b|
  {
    if |b| > 0 {
      assert (w + b)[..|w + b| - 1] == w + b[..|b| - 1];
      TrimEndPadded(w, b[..|b| - 1]);
    } else {
      assert w + b == w;
    }
  }

  /** Trimming strips exactly the white-space padding around a word. */
  lemma TrimPadded(a: string, w: string, b: string)
    requires AllSpace(a) && AllSpace(b)
    requires |w| > 0 && !IsSpace(w[0]) && !IsSpace(w[|w| - 1])
    ensures Trim(a + w + b) == w
  {
    assert a + w + b == a + (w + b);
    TrimStartPadded(a, w + b);
    TrimEndPadded(w, b);
  }

  /** A string with no white space at either end is its own trim. */
  lemma TrimWord(w: string)
    requires |w| > 0 && !IsSpace(w[0]) && !IsSpace(w[|w| - 1])
    ensures Trim(w) == w
  {
    TrimPadded("", w, "");
    assert "" + w + "" == w;
  }

  // ---------------------------------------------------------------- upper case

  /** `toUpperCase` on one character, restricted to ASCII letters. */
  function UpperChar(c: char): char {
    if 'a' <= c <= 'z' then (c as int - 32) as char else c
  }

  /** `s.toUpperCase()`: character by character. */
  function Upper(s: string): (u: string)
    ensures |u| == |s|
    decreases |s|
  {
    if |s| == 0 then [] else [UpperChar(s[0])] + Upper(s[1..])
  }

  /** Each character of `Upper(s)` is the upper-case form of the character at the same place. */
  lemma {:induction false} UpperAt(s: string)
    ensures forall k :: 0 <= k < |s| ==> Upper(s)[k] == UpperChar(s[k])
    decreases |s|
  {
    if |s| > 0 {
      UpperAt(s[1..]);
      assert forall k :: 1 <= k < |s| ==> Upper(s)[k] == Upper(s[1..])[k - 1];
    }
  }

  /** `Upper` character by character. */
  lemma UpperWord(s: string, w: string)
    requires |s| == |w| && forall k :: 0 <= k < |s| ==> UpperChar(s[k]) == w[k]
    ensures Upper(s) == w
  {
    UpperAt(s);
  }

  lemma UpperConcat(a: string, b: string)
    ensures Upper(a + b) == Upper(a) + Upper(b)
  {
    UpperAt(a + b);
    UpperAt(a);
    UpperAt(b);
    assert forall k :: |a| <= k < |a + b| ==> (a + b)[k] == b[k - |a|];
  }

  lemma {:induction false} TrimStartUpper(s: string)
    ensures TrimStart(Upper(s)) == Upper(TrimStart(s))
    decreases |s|
  {
    if |s| > 0 {
      UpperAt(s);
      if IsSpace(s[0]) {
        TrimStartUpper(s[1..]);
      }
    }
  }

  lemma {:induction false} TrimEndUpper(s: string)
    ensures TrimEnd(Upper(s)) == Upper(TrimEnd(s))
    decreases |s|
  {
    if |s| > 0 {
      UpperAt(s);
      UpperAt(s[..|s| - 1]);
      assert Upper(s)[..|s| - 1] == Upper(s[..|s| - 1]);
      if IsSpace(s[|s| - 1]) {
        TrimEndUpper(s[..|s| - 1]);
      }
    }
  }

  /** Go's `ToUpper(TrimSpace(s))` and JavaScript's `s.toUpperCase().trim()` agree. */
  lemma UpperTrimCommute(s: string)
    ensures Upper(Trim(s)) == Trim(Upper(s))
  {
    TrimStartUpper(s);
    TrimEndUpper(TrimStart(s));
  }

  // ---------------------------------------------------------------- tokens

  /** The longest prefix of `s` without white space. */
  function LeadingWord(s: string): (w: string)
    ensures |w| <= |s| && w == s[..|w|] && NoSpace(w)
    ensures |w| < |s| ==> IsSpace(s[|w|])
    ensures |s| > 0 && !IsSpace(s[0]) ==> |w| > 0
    decreases |s|
  {
    if |s| == 0 || IsSpace(s[0]) then "" else [s[0]] + LeadingWord(s[1..])
  }

  /** The maximal runs of non-white-space characters of `s`, left to right. */
  function Words(s: string): (ws: seq<string>)
    ensures forall k :: 0 <= k < |ws| ==> |ws[k]| > 0 && NoSpace(ws[k])
    decreases |s|
  {
    if |s| == 0 then []
    else if IsSpace(s[0]) then Words(s[1..])
    else var w := LeadingWord(s); [w] + Words(s[|w|..])
  }

  lemma {:induction false} WordsEmpty(s: string)
    ensures |Words(s)| == 0 <==> AllSpace(s)
    decreases |s|
  {
    if |s| > 0 && IsSpace(s[0]) {
      WordsEmpty(s[1..]);
      assert AllSpace(s) <==> AllSpace(s[1..]) by {
        forall k | 0 <= k < |s[1..]| ensures s[1..][k] == s[k + 1] { }
      }
    }
  }

  /**
   * `text.trim().split(/\s+/)`: the words of the text, except that a blank text
   * gives the single empty token `""`.
   */
  function Tokens(text: string): (ts: seq<string>)
    ensures |ts| >= 1
    ensures ts == [""] <==> AllSpace(text)
    ensures !AllSpace(text) ==> forall k :: 0 <= k < |ts| ==> |ts[k]| > 0 && NoSpace(ts[k])
  {
    WordsEmpty(text);
    var ws := Words(text);
    assert |ws| > 0 ==> |ws[0]| > 0;
    if |ws| == 0 then [""] else ws
  }

  /** `ws.join(sep)`. */
  function Join(ws: seq<string>, sep: string): string
    decreases |ws|
  {
    if |ws| == 0 then "" else if |ws| == 1 then ws[0] else ws[0] + sep + Join(ws[1..], sep)
  }

  lemma {:induction false} WordsSkipSpace(a: string, s: string)
    requires AllSpace(a)
    ensures Words(a + s) == Words(s)
    decreases |a|
  {
    if |a| > 0 {
      assert (a + s)[1..] == a[1..] + s;
      WordsSkipSpace(a[1..], s);
    } else {
      assert a + s == s;
    }
  }

  lemma {:induction false} RunOfWord(w: string, s: string)
    requires NoSpace(w) && (|s| == 0 || IsSpace(s[0]))
    ensures LeadingWord(w + s) == w
    decreases |w|
  {
    if |w| > 0 {
      assert (w + s)[1..] == w[1..] + s;
      RunOfWord(w[1..], s);
    } else {
      assert w + s == s;
    }
  }

  lemma WordsCons(w: string, s: string)
    requires |w| > 0 && NoSpace(w) && (|s| == 0 || IsSpace(s[0]))
    ensures Words(w + s) == [w] + Words(s)
  {
    RunOfWord(w, s);
    assert (w + s)[|w|..] == s;
  }

  /** Joining words with a white-space separator and splitting again gives the words back. */
  lemma {:induction false} WordsOfJoin(ws: seq<string>, sep: string)
    requires forall k :: 0 <= k < |ws| ==> |ws[k]| > 0 && NoSpace(ws[k])
    requires |sep| > 0 && AllSpace(sep)
    ensures Words(Join(ws, sep)) == ws
    decreases |ws|
  {
    if |ws| == 1 {
      WordsCons(ws[0], "");
      assert ws[0] + "" == ws[0];
    } else if |ws| > 1 {
      var rest := Join(ws[1..], sep);
      assert ws[0] + sep + rest == ws[0] + (sep + rest);
      WordsCons(ws[0], sep + rest);
      WordsSkipSpace(sep, rest);
      WordsOfJoin(ws[1..], sep);
      assert ws == [ws[0]] + ws[1..];
    }
  }

  /** The tokeniser inverts `Join` on a non-empty list of words. */
  lemma TokensOfJoin(ws: seq<string>, sep: string)
    requires |ws| > 0
    requires forall k :: 0 <= k < |ws| ==> |ws[k]| > 0 && NoSpace(ws[k])
    requires |sep| > 0 && AllSpace(sep)
    ensures Tokens(Join(ws, sep)) == ws
  {
    WordsOfJoin(ws, sep);
  }

  // ---------------------------------------------------------------- loops

  /** The number of iterations of `for (k = 0; k < n; k++)` when `n` may be `NaN`. */
  function LoopCount(n: Option<int>): (c: nat)
    ensures n.Some? && n.value >= 0 ==> c == n.value
    ensures n.None? || n.value <= 0 ==> c == 0
  {
    if n.Some? && n.value > 0 then n.value else 0
  }

  // ---------------------------------------------------------------- numbers

  predicate IsDigit(c: char) {
    '0' <= c <= '9'
  }

  predicate AllDigits(s: string) {
    forall k :: 0 <= k < |s| ==> IsDigit(s[k])
  }

  /** The longest prefix of `s` made of decimal digits. */
  function DigitPrefix(s: string): (d: string)
    ensures AllDigits(d)
    decreases |s|
  {
    if |s| == 0 || !IsDigit(s[0]) then "" else [s[0]] + DigitPrefix(s[1..])
  }

  /** `DigitPrefix` is a prefix, and no digit follows it. */
  lemma {:induction false} DigitPrefixIsLongest(s: string)
    ensures |DigitPrefix(s)| <= |s| && DigitPrefix(s) == s[..|DigitPrefix(s)|]
    ensures |DigitPrefix(s)| < |s| ==> !IsDigit(s[|DigitPrefix(s)|])
    decreases |s|
  {
    if |s| > 0 && IsDigit(s[0]) {
      DigitPrefixIsLongest(s[1..]);
    }
  }

  /** The value of a decimal digit string, most significant digit first. */
  function DigitsValue(ds: string): nat
    requires AllDigits(ds)
    decreases |ds|
  {
    if |ds| == 0 then 0
    else DigitsValue(ds[..|ds| - 1]) * 10 + (ds[|ds| - 1] as int - '0' as int)
  }

  /**
   * `parseInt(s, 10)`: leading white space is skipped, an optional sign is read,
   * then the longest run of digits; without a digit the result is `NaN` (`None`).
   */
  function ParseInt(s: string): Option<int> {
    ParseSigned(TrimStart(s))
  }

  /** `parseInt` once leading white space is gone. */
  function ParseSigned(t: string): Option<int> {
    var body := if |t| > 0 && (t[0] == '-' || t[0] == '+') then t[1..] else t;
    var ds := DigitPrefix(body);
    if |ds| == 0 then None
    else
      var v: int := DigitsValue(ds);
      Some(if t[0] == '-' then -v else v)
  }

  /** The value of a whole string of decimal digits, or `None` if some character is not a digit. */
  function ReadDecimal(ds: string): Option<nat>
    decreases |ds|
  {
    if |ds| == 0 then Some(0)
    else if !IsDigit(ds[|ds| - 1]) then None
    else match ReadDecimal(ds[..|ds| - 1])
      case None => None
      case Some(v) => Some(v * 10 + (ds[|ds| - 1] as int - '0' as int))
  }

  lemma {:induction false} ReadDecimalDigits(ds: string)
    requires AllDigits(ds)
    ensures ReadDecimal(ds) == Some(DigitsValue(ds))
    decreases |ds|
  {
    if |ds| > 0 {
      ReadDecimalDigits(ds[..|ds| - 1]);
    }
  }

  /**
   * `BigInt(s)` on a decimal string: surrounding white space is ignored, a blank
   * string is 0, otherwise an optional sign and at least one digit must make up
   * the whole text; anything else is a SyntaxError (`None`).
   */
  function BigIntOf(s: string): Option<int> {
    ReadBigInt(Trim(s))
  }

  /** `BigInt` once surrounding white space is gone. */
  function ReadBigInt(t: string): Option<int> {
    if |t| == 0 then Some(0)
    else
      var neg := t[0] == '-';
      var body := if neg || t[0] == '+' then t[1..] else t;
      if |body| == 0 then None
      else match ReadDecimal(body)
        case None => None
        case Some(v) => Some(if neg then -(v as int) else v)
  }

  function Digit(d: nat): (c: char)
    requires d < 10
    ensures IsDigit(c)
  {
    ('0' as int + d) as char
  }

  /** The decimal digits of `n`, without leading zeros. */
  function NatDigits(n: nat): (ds: string)
    ensures |ds| > 0 && AllDigits(ds)
    decreases n
  {
    if n < 10 then [Digit(n)] else NatDigits(n / 10) + [Digit(n % 10)]
  }

  /** `String(n)` for an integer: a minus sign for negatives, then the digits. */
  function Show(n: int): (s: string)
    ensures |s| > 0 && NoSpace(s) && IsDigit(s[|s| - 1])
  {
    if n < 0 then "-" + NatDigits(-n) else NatDigits(n)
  }

  lemma {:induction false} NatDigitsValue(n: nat)
    ensures DigitsValue(NatDigits(n)) == n
    decreases n
  {
    if n >= 10 {
      var ds := NatDigits(n);
      assert ds[..|ds| - 1] == NatDigits(n / 10);
      NatDigitsValue(n / 10);
    }
  }

  lemma {:induction false} DigitPrefixOf(d: string, rest: string)
    requires AllDigits(d) && (|rest| == 0 || !IsDigit(rest[0]))
    ensures DigitPrefix(d + rest) == d
    decreases |d|
  {
    if |d| > 0 {
      assert (d + rest)[1..] == d[1..] + rest;
      DigitPrefixOf(d[1..], rest);
    } else {
      assert d + rest == rest;
    }
  }

  /** The digits of `n`, followed by text that does not start with a digit, parse back to `n`. */
  lemma ParseDigits(n: nat, rest: string)
    requires |rest| == 0 || !IsDigit(rest[0])
    ensures DigitPrefix(NatDigits(n) + rest) == NatDigits(n)
    ensures DigitsValue(NatDigits(n)) == n
  {
    DigitPrefixOf(NatDigits(n), rest);
    NatDigitsValue(n);
  }

  lemma ParseSignedNonNegative(n: nat, rest: string)
    requires |rest| == 0 || !IsDigit(rest[0])
    ensures ParseSigned(NatDigits(n) + rest) == Some(n)
  {
    var s := NatDigits(n) + rest;
    assert s[0] == NatDigits(n)[0];
    ParseDigits(n, rest);
  }

  lemma ParseSignedNegative(n: nat, rest: string)
    requires |rest| == 0 || !IsDigit(rest[0])
    ensures ParseSigned("-" + NatDigits(n) + rest) == Some(-(n as int))
  {
    var s := "-" + NatDigits(n) + rest;
    assert s[0] == '-';
    assert s[1..] == NatDigits(n) + rest;
    ParseDigits(n, rest);
  }

  /** `parseInt` reads back what `String` wrote, whatever non-digit text follows. */
  lemma ParseIntShow(n: int, rest: string)
    requires |rest| == 0 || !IsDigit(rest[0])
    ensures ParseInt(Show(n) + rest) == Some(n)
  {
    var s := Show(n) + rest;
    assert s[0] == Show(n)[0];
    assert TrimStart(s) == s;
    if n < 0 {
      ParseSignedNegative(-n, rest);
    } else {
      ParseSignedNonNegative(n, rest);
    }
  }

  lemma ReadBigIntNonNegative(n: nat)
    ensures ReadBigInt(NatDigits(n)) == Some(n)
  {
    var s := NatDigits(n);
    assert IsDigit(s[0]);
    ReadDecimalDigits(s);
    NatDigitsValue(n);
  }

  lemma ReadBigIntNegative(n: nat)
    ensures ReadBigInt("-" + NatDigits(n)) == Some(-(n as int))
  {
    var s := "-" + NatDigits(n);
    assert s[0] == '-' && s[1..] == NatDigits(n);
    ReadDecimalDigits(NatDigits(n));
    NatDigitsValue(n);
  }

  lemma TrimShow(n: int)
    ensures Trim(Show(n)) == Show(n)
  {
    var s := Show(n);
    assert !IsSpace(s[0]);
    TrimWord(s);
  }

  /** `BigInt` reads back what `String` wrote. */
  lemma BigIntShow(n: int)
    ensures BigIntOf(Show(n)) == Some(n)
  {
    TrimShow(n);
    if n < 0 {
      ReadBigIntNegative(-n);
    } else {
      ReadBigIntNonNegative(n);
    }
  }
}

=== FILE: ts_parser.dfy ===
/**
 * `parseInput` of apps/dodgeball-ts/src/parser.ts: one case read from the
 * tokens of a text with `parseInt`. It never throws: a token that is not a
 * number, or is missing, gives `NaN`, which the model writes `None`.
 */
module TsParser {
  import opened Wrappers
  import opened Text
  import opened Layout
  import opened Reading

  /** A player as `parseInput` builds it: coordinates that may be `NaN`, and alive. */
  datatype TsPlayer = TsPlayer(x: Option<int>, y: Option<int>, alive: bool)

  /** The message `parseInput` returns. */
  datatype TsInput = TsInput(players: seq<TsPlayer>, startDirection: Option<int>, startIndex: Option<int>)

  /** Reads `k` players from cursor `i`, x then y for each, with `alive = true`. */
  function ReadPlayers(cells: seq<Cell>, i: nat, k: nat): (ps: seq<TsPlayer>)
    ensures |ps| == k
    decreases k
  {
    if k == 0 then []
    else [TsPlayer(CellAt(cells, i).num, CellAt(cells, i + 1).num, true)] + ReadPlayers(cells, i + 2, k - 1)
  }

  /** Player `j` holds the numbers of tokens `i + 2j` and `i + 2j + 1`, and is alive. */
  lemma {:induction false} ReadPlayersReads(cells: seq<Cell>, i: nat, k: nat)
    ensures forall j :: 0 <= j < k ==>
      ReadPlayers(cells, i, k)[j] == TsPlayer(CellAt(cells, i + 2 * j).num, CellAt(cells, i + 2 * j + 1).num, true)
    decreases k
  {
    if k > 0 {
      ReadPlayersReads(cells, i + 2, k - 1);
      var ps, rest := ReadPlayers(cells, i, k), ReadPlayers(cells, i + 2, k - 1);
      assert forall j :: 1 <= j < k ==> ps[j] == rest[j - 1] && i + 2 * j == (i + 2) + 2 * (j - 1);
    }
  }

  /** The players depend on the `2k` tokens from `i` and on nothing else. */
  lemma {:induction false} ReadPlayersFrame(cells: seq<Cell>, cells': seq<Cell>, i: nat, k: nat)
    requires forall m :: i <= m < i + 2 * k ==> CellAt(cells, m) == CellAt(cells', m)
    ensures ReadPlayers(cells, i, k) == ReadPlayers(cells', i, k)
    decreases k
  {
    if k > 0 {
      ReadPlayersFrame(cells, cells', i + 2, k - 1);
      assert CellAt(cells, i) == CellAt(cells', i) && CellAt(cells, i + 1) == CellAt(cells', i + 1);
    }
  }

  /**
   * `parseInput` on the cells of the tokens: the player count, the numeric start
   * direction, the players, a direction token that is skipped, and the start
   * index, which is kept as written (not converted from 1-based).
   */
  function ParseCells(cells: seq<Cell>): TsInput {
    var n := LoopCount(CellAt(cells, 0).num);
    TsInput(ReadPlayers(cells, 2, n), CellAt(cells, 1).num, CellAt(cells, 3 + 2 * n).num)
  }

  /** `parseInput` on a text. */
  function ParseInput(text: string): TsInput {
    ParseCells(Cells(Tokens(text)))
  }

  /** Where each part of the message comes from. */
  lemma ParseCellsReads(cells: seq<Cell>)
    ensures var r := ParseCells(cells);
      && |r.players| == LoopCount(CellAt(cells, 0).num)
      && r.startDirection == CellAt(cells, 1).num
      && r.startIndex == CellAt(cells, 3 + 2 * |r.players|).num
      && forall j :: 0 <= j < |r.players| ==>
           r.players[j] == TsPlayer(CellAt(cells, 2 + 2 * j).num, CellAt(cells, 2 + 2 * j + 1).num, true)
  {
    ReadPlayersReads(cells, 2, LoopCount(CellAt(cells, 0).num));
  }

  /** A count that is `NaN`, zero or negative gives no players; the loop runs zero times. */
  lemma NoCountNoPlayers(cells: seq<Cell>)
    requires CellAt(cells, 0).num.None? || CellAt(cells, 0).num.value <= 0
    ensures ParseCells(cells).players == []
  {
  }

  /** Tokens past the end are `undefined`, which `parseInt` reads as `NaN`. */
  lemma MissingTokensAreNaN(cells: seq<Cell>)
    ensures |cells| <= 1 ==> ParseCells(cells).startDirection.None?
    ensures |cells| <= 3 + 2 * |ParseCells(cells).players| ==> ParseCells(cells).startIndex.None?
    ensures forall j :: 0 <= j < |ParseCells(cells).players| && |cells| <= 2 + 2 * j ==>
      ParseCells(cells).players[j].x.None?
    ensures forall j :: 0 <= j < |ParseCells(cells).players| && |cells| <= 2 + 2 * j + 1 ==>
      ParseCells(cells).players[j].y.None?
  {
    ParseCellsReads(cells);
  }

  /** The token after the players is read and dropped: whatever it holds, the message is the same. */
  lemma DirectionTokenIgnored(cells: seq<Cell>, c: Cell)
    requires 2 + 2 * LoopCount(CellAt(cells, 0).num) < |cells|
    ensures ParseCells(cells[2 + 2 * LoopCount(CellAt(cells, 0).num) := c]) == ParseCells(cells)
  {
    var n := LoopCount(CellAt(cells, 0).num);
    var cells' := cells[2 + 2 * n := c];
    assert CellAt(cells', 0) == CellAt(cells, 0) && CellAt(cells', 1) == CellAt(cells, 1);
    assert CellAt(cells', 3 + 2 * n) == CellAt(cells, 3 + 2 * n);
    ReadPlayersFrame(cells, cells', 2, n);
  }

  /** Tokens after the start index are never read. */
  lemma TrailingTokensIgnored(cells: seq<Cell>, extra: seq<Cell>)
    requires 4 + 2 * LoopCount(CellAt(cells, 0).num) <= |cells|
    ensures ParseCells(cells + extra) == ParseCells(cells)
  {
    var n := LoopCount(CellAt(cells, 0).num);
    var cells' := cells + extra;
    assert forall m: nat :: m < |cells| ==> CellAt(cells', m) == CellAt(cells, m);
    ReadPlayersFrame(cells, cells', 2, n);
  }

  /** A blank text gives no players and `NaN` for both numbers: its one token is empty. */
  lemma BlankInput(text: string)
    requires AllSpace(text)
    ensures ParseInput(text) == TsInput([], None, None)
  {
    assert Tokens(text)[0] == "";
    assert ReadCell("").num == None by {
      assert TrimStart("") == "";
    }
  }

  // ---------------------------------------------------------------- the writer

  /** A message the text format can express: every number present and every player alive. */
  predicate Encodable(r: TsInput) {
    && r.startDirection.Some?
    && r.startIndex.Some?
    && forall j :: 0 <= j < |r.players| ==> r.players[j].x.Some? && r.players[j].y.Some? && r.players[j].alive
  }

  function PlayerBlocks(ps: seq<TsPlayer>): (blocks: seq<seq<Field>>)
    requires forall j :: 0 <= j < |ps| ==> ps[j].x.Some? && ps[j].y.Some?
    ensures |blocks| == |ps|
  {
    seq(|ps|, j requires 0 <= j < |ps| => [Num(ps[j].x.value), Num(ps[j].y.value)])
  }

  /**
   * A message as the fields of an input text; `skipped` is what is written in
   * the direction slot the reader drops.
   */
  function InputFields(r: TsInput, skipped: Field): (fs: seq<Field>)
    requires Encodable(r)
  {
    [Num(|r.players|), Num(r.startDirection.value)] + Concat(PlayerBlocks(r.players))
      + [skipped, Num(r.startIndex.value)]
  }

  /** The cells hold message `r` as the writer lays it out. */
  ghost predicate InputAt(cells: seq<Cell>, r: TsInput) {
    var n := |r.players|;
    && r.startDirection.Some? && r.startIndex.Some?
    && CellAt(cells, 0).num == Some(n)
    && CellAt(cells, 1).num == r.startDirection
    && CellAt(cells, 3 + 2 * n).num == r.startIndex
    && forall j :: 0 <= j < n ==>
         CellAt(cells, 2 + 2 * j).num == r.players[j].x && CellAt(cells, 2 + 2 * j + 1).num == r.players[j].y
  }

  lemma ParseCellsAt(cells: seq<Cell>, r: TsInput)
    requires Encodable(r) && InputAt(cells, r)
    ensures ParseCells(cells) == r
  {
    ParseCellsReads(cells);
    var p := ParseCells(cells);
    assert |p.players| == |r.players|;
    forall j | 0 <= j < |r.players| ensures p.players[j] == r.players[j] {
    }
    assert p.players == r.players;
  }

  /** Cells that read back written player fields hold each player's coordinates. */
  lemma PlayersWritten(fs: seq<Field>, cells: seq<Cell>, i: nat, ps: seq<TsPlayer>)
    requires forall j :: 0 <= j < |ps| ==> ps[j].x.Some? && ps[j].y.Some?
    requires ReadsBack(cells, fs) && HasAt(fs, i, Concat(PlayerBlocks(ps)))
    ensures forall j :: 0 <= j < |ps| ==>
      CellAt(cells, i + 2 * j).num == ps[j].x && CellAt(cells, i + 2 * j + 1).num == ps[j].y
  {
    var blocks := PlayerBlocks(ps);
    HasAtPairs(fs, i, blocks);
    forall j | 0 <= j < |ps|
      ensures CellAt(cells, i + 2 * j).num == ps[j].x && CellAt(cells, i + 2 * j + 1).num == ps[j].y
    {
      assert blocks[j] == [Num(ps[j].x.value), Num(ps[j].y.value)];
      assert Agrees(cells[i + 2 * j], fs[i + 2 * j]) && Agrees(cells[i + 2 * j + 1], fs[i + 2 * j + 1]);
    }
  }

  lemma InputAtWritten(fs: seq<Field>, cells: seq<Cell>, r: TsInput, skipped: Field)
    requires Encodable(r) && ReadsBack(cells, fs) && HasAt(fs, 0, InputFields(r, skipped))
    ensures InputAt(cells, r)
  {
    var n := |r.players|;
    var mid := Concat(PlayerBlocks(r.players));
    ConcatPairs(PlayerBlocks(r.players));
    HasAtFrame2(fs, 0, Num(n), Num(r.startDirection.value), mid, skipped, Num(r.startIndex.value));
    PlayersWritten(fs, cells, 2, r.players);
    assert Agrees(cells[0], fs[0]) && Agrees(cells[1], fs[1]) && Agrees(cells[3 + 2 * n], fs[3 + 2 * n]);
  }

  /** The reader inverts the writer on cells that read back the written fields. */
  lemma ReadWrittenInput(r: TsInput, skipped: Field, cells: seq<Cell>)
    requires Encodable(r) && ReadsBack(cells, InputFields(r, skipped))
    ensures ParseCells(cells) == r
  {
    HasAtWhole(InputFields(r, skipped));
    InputAtWritten(InputFields(r, skipped), cells, r, skipped);
    ParseCellsAt(cells, r);
  }

  /**
   * `parseInput` inverts the writer, through the tokeniser, for any white-space
   * separator and whatever token is written in the skipped slot.
   */
  lemma InputRoundTrip(r: TsInput, skipped: Field, sep: string)
    requires Encodable(r)
    requires |sep| > 0 && AllSpace(sep)
    ensures ParseInput(Join(WriteAll(InputFields(r, skipped)), sep)) == r
  {
    var fs := InputFields(r, skipped);
    assert |fs| > 0;
    TokensOfWritten(fs, sep);
    ReadWriteAll(fs);
    ReadWrittenInput(r, skipped, Cells(WriteAll(fs)));
  }
}

=== FILE: wrappers.dfy ===
/** Failure-compatible wrappers shared by every module of the model. */
module Wrappers {

  /** A value that may be absent; in the JavaScript readers `None` stands for `NaN`. */
  datatype Option<+T> = None | Some(value: T)

  /** The outcome of an operation that can throw (JavaScript) or panic (Go). */
  datatype Result<+R, +E> = Success(value: R) | Failure(error: E) {

    predicate IsFailure() {
      Failure?
    }

    function PropagateFailure<U>(): Result<U, E>
      requires Failure?
    {
      Failure(error)
    }

    function Extract(): R
      requires Success?
    {
      value
    }
  }
}
